=== FILE: README.md ===
# Detaching distribution archives (commons-release-plugin, `detach-distributions`)

A Dafny model of the `CommonsDistributionDetachmentMojo` of the Apache Commons release
plugin. In a release build the step looks at the artifacts attached to the Maven project.
It records a SHA-1 of every attached artifact's file under the key
`groupId-artifactId-version-type`. It detaches the source and binary distribution archives
(types `zip`, `tar.gz`, `zip.asc`, `tar.gz.asc`) so that Maven does not deploy them.
It then stages them in a working directory:

- the digest map as `sha1.properties`;
- a byte-for-byte copy of each archive;
- for every file whose name does not contain `asc`, a `.md5` and a `.sha1` sidecar.

## How the step is modelled

- **Artifacts** (`artifacts.dfy`):
  - an artifact is four coordinates and a backing file path;
  - this file also holds the allow-list, the SHA-1 key, the file name (`File.getName`) and the working-directory paths.
- **Files** (`files.dfy`):
  - the step reads from an immutable snapshot of the file system (`FileSystem`);
  - its writes are an ordered effect log (`Effect`: create a directory, store the properties, copy a file, write a text file);
  - `Apply` folds the log into the file system that results;
  - a read fails when the path is not a regular file, and a write fails when its target is in `Environment.unwritable`;
  - MD5 and SHA-1 hex, the platform line separator and encoding, and the `Properties.store` text are function-valued fields of `Environment`.
- **Detachment** (`detachment.dfy`):
  - `Run` is `execute`: the two configuration gates, then the classification pass (`Classify`);
  - then the "nothing to detach" exit and the removal loop (`RemoveEach` over Java's `List.remove(Object)`);
  - then `Stage`: directory creation, `sha1.properties`, the copy stage and the signing stage, each stopping at its first failure;
  - the result (`Outcome`) is the exit, the attached list afterwards, the detached list, the digest map and the writes performed.
- **StagingPlan** (`staging_plan.dfy`): the writes of a run that meets no failure, and the proof that every run performs a prefix of them.
- **DetachmentProperties** (`run_properties.dfy`): what a whole run guarantees, one exit path at a time.
- **Rerun** (`rerun.dfy`): running the step again over the file system a completed run leaves behind.
- **StagedFiles** (`staged_files.dfy`): what the working directory holds after a completed run: the digest map, the copies' bytes and the sidecars' digests.
- **RunExits** (`run_exits.dfy`): each exit of `execute` characterised by the inputs alone.
- **DetachmentScenario** (`scenario.dfy`): one concrete project (a jar, a zip and the zip's signature) run end to end.

### Two details of the code

- The sidecar digests are computed from the artifact's own file (`artifact.getFile()`, lines 222 and 227), not from the staged copy. Both hold the same bytes after a successful copy.
- `sha1.properties` is written after the removal and after the working directory is created (lines 132-138).

## Model

| member | source | states |
|---|---|---|
| Artifacts.DetachableTypesAreExact | src/main/java/org/apache/commons/release/plugin/mojos/CommonsDistributionDetachmentMojo.java:62-70 | an artifact type is detached exactly when it equals one of the four tags; "ZIP", "tar" and "src.zip" are not detached |
| Artifacts.BaseNameIsLastElement | src/main/java/org/apache/commons/release/plugin/mojos/CommonsDistributionDetachmentMojo.java:203 | `BaseName` (`File.getName`) is the longest suffix of the path that holds no '/' |
| Artifacts.BaseNameSuffix | src/main/java/org/apache/commons/release/plugin/mojos/CommonsDistributionDetachmentMojo.java:203 | `BaseName`, character by character: each of its characters is the matching character at the end of the path, none is '/', and a '/' precedes it unless it is the whole path |
| Artifacts.ContainsIsOccurrence | src/main/java/org/apache/commons/release/plugin/mojos/CommonsDistributionDetachmentMojo.java:220 | `Contains` (`String.contains`) holds exactly when the part occurs at some index of the name |
| Artifacts.NotContainedWithoutCharacter | src/main/java/org/apache/commons/release/plugin/mojos/CommonsDistributionDetachmentMojo.java:220 | a name lacking any one character of the part does not contain the part |
| Artifacts.AscAnywhereInNameSkipsSidecars | src/main/java/org/apache/commons/release/plugin/mojos/CommonsDistributionDetachmentMojo.java:220 | a `zip` archive named `javascript-1.0-src.zip` is detached but gets no sidecars, because the test is a substring test on the whole file name |
| Artifacts.WorkingDirectoryNames | src/main/java/org/apache/commons/release/plugin/mojos/CommonsDistributionDetachmentMojo.java:201-204 | `StagedPath`, `Md5Path` and `Sha1Path`: two staged copies, two `.md5` files or two `.sha1` files share a path exactly when the artifacts' file names are equal; a `.md5` path never equals a `.sha1` path |
| Artifacts.SidecarFileNames | src/main/java/org/apache/commons/release/plugin/mojos/CommonsDistributionDetachmentMojo.java:246-267 | `getMd5FilePath` and `getSha1FilePath` name files directly in the working directory, called the staged copy's name plus ".md5" or ".sha1"; the staged copy's own base name is the artifact's file name |
| Artifacts.WrittenPathsInDirectory | src/main/java/org/apache/commons/release/plugin/mojos/CommonsDistributionDetachmentMojo.java:181 | `sha1.properties`, each staged copy and each sidecar path begin with the working directory followed by '/' |
| Artifacts.PropertiesPathInDirectory | src/main/java/org/apache/commons/release/plugin/mojos/CommonsDistributionDetachmentMojo.java:181 | `sha1.properties` begins with the working directory followed by '/' |
| Artifacts.Sha1KeyInjective | src/main/java/org/apache/commons/release/plugin/mojos/CommonsDistributionDetachmentMojo.java:152-157 | `Sha1Key`: when group, artifact id and version hold no hyphen, equal keys mean equal coordinates |
| Artifacts.Sha1KeyAmbiguous | src/main/java/org/apache/commons/release/plugin/mojos/CommonsDistributionDetachmentMojo.java:152-157 | with hyphens inside the coordinates, two different artifacts share one key |
| Sequences.Filter | src/main/java/org/apache/commons/release/plugin/mojos/CommonsDistributionDetachmentMojo.java:122-127 | the collected list is no longer than the input and holds exactly the input's elements that satisfy the predicate |
| Sequences.RemoveFirst | src/main/java/org/apache/commons/release/plugin/mojos/CommonsDistributionDetachmentMojo.java:133 | `List.remove` leaves the list unchanged when the element is absent, and otherwise removes exactly one occurrence |
| Sequences.RemoveFirstCutsFirstOccurrence | src/main/java/org/apache/commons/release/plugin/mojos/CommonsDistributionDetachmentMojo.java:133 | when the element is present, `List.remove` cuts out its first occurrence and keeps every other element in place and in order |
| Sequences.FilterIsOrderedSelection | src/main/java/org/apache/commons/release/plugin/mojos/CommonsDistributionDetachmentMojo.java:122-127 | the collected list is a subsequence of the input and keeps every occurrence of each selected element |
| Sequences.FilterPartition | src/main/java/org/apache/commons/release/plugin/mojos/CommonsDistributionDetachmentMojo.java:122-134 | the selected and the rejected elements together are the whole list, counted with multiplicity |
| Sequences.RemovingFilteredPartitions | src/main/java/org/apache/commons/release/plugin/mojos/CommonsDistributionDetachmentMojo.java:132-134 | `RemoveEach` (the removal loop): removing each selected element once from the list leaves exactly the rejected elements, in order, and disjoint from the selected ones |
| Detachment.Classify | src/main/java/org/apache/commons/release/plugin/mojos/CommonsDistributionDetachmentMojo.java:122-127 | the classification pass succeeds exactly when every attached artifact's file can be read |
| Detachment.ClassifyFailsAtFirstUnreadable | src/main/java/org/apache/commons/release/plugin/mojos/CommonsDistributionDetachmentMojo.java:162-170 | a failed pass names the artifact id, version and type of the first artifact whose file cannot be read |
| Detachment.ClassifyDetachesFilter | src/main/java/org/apache/commons/release/plugin/mojos/CommonsDistributionDetachmentMojo.java:124-126 | the detached list is the allow-list filter of the attached list |
| Detachment.ClassifyRecordsKeys | src/main/java/org/apache/commons/release/plugin/mojos/CommonsDistributionDetachmentMojo.java:158-161 | the digest map has an entry for the key of every attached artifact and no other entry |
| Detachment.ClassifyRecordsSha1s | src/main/java/org/apache/commons/release/plugin/mojos/CommonsDistributionDetachmentMojo.java:158-161 | the entry of each key holds the SHA-1 of the file of the last artifact with that key |
| Detachment.CopyStage | src/main/java/org/apache/commons/release/plugin/mojos/CommonsDistributionDetachmentMojo.java:196-208 | copies go in detached order, each to `dir/<file name>` with the source's bytes; the stage finishes exactly when every copy is possible, and otherwise it stops at the first impossible copy and names its source and target |
| Detachment.FirstUnsignable | src/main/java/org/apache/commons/release/plugin/mojos/CommonsDistributionDetachmentMojo.java:219-235 | the position returned is that of the first artifact whose sidecars cannot both be written |
| Detachment.SignEach | src/main/java/org/apache/commons/release/plugin/mojos/CommonsDistributionDetachmentMojo.java:218-237 | signing finishes exactly when every listed artifact can be signed; a failure names the file and leaves the sidecars of the artifacts before it, plus the `.md5` when only the `.sha1` failed |
| Detachment.AllSidecars | src/main/java/org/apache/commons/release/plugin/mojos/CommonsDistributionDetachmentMojo.java:222-231 | the planned sidecars are the `.md5` and the `.sha1` of each listed artifact and nothing else |
| Detachment.SignEachFollowsPlan | src/main/java/org/apache/commons/release/plugin/mojos/CommonsDistributionDetachmentMojo.java:218-237 | the signing stage writes the planned sidecars of every artifact before the first one it cannot sign, then that artifact's `.md5` if it could be written |
| Files.Apply | src/main/java/org/apache/commons/release/plugin/mojos/CommonsDistributionDetachmentMojo.java:135-141 | after the writes, every target written is present, no file or directory disappeared, and a file no write touches keeps its bytes |
| Files.ApplyCreatesOnlyTargets | src/main/java/org/apache/commons/release/plugin/mojos/CommonsDistributionDetachmentMojo.java:135-141 | nothing appears from nowhere: every file afterwards was there before or is the target of a write, and every directory afterwards was there before or was created by an effect |
| Files.ApplyWithin | src/main/java/org/apache/commons/release/plugin/mojos/CommonsDistributionDetachmentMojo.java:135-141 | writes confined to files under a prefix and to creating one directory leave every other file as it was, add no file outside the prefix and no other directory |
| Files.ApplyLeavesLastWrites | src/main/java/org/apache/commons/release/plugin/mojos/CommonsDistributionDetachmentMojo.java:135-141 | after the writes, a file holds what its last write put there: the stored properties text, the copied bytes, or the encoded text |
| Files.LaterWritesAgree | src/main/java/org/apache/commons/release/plugin/mojos/CommonsDistributionDetachmentMojo.java:135-141 | when every write to a path from some point on leaves the same bytes, and there is at least one, the path ends up holding those bytes |
| StagingPlan.PlanWritesEverything | src/main/java/org/apache/commons/release/plugin/mojos/CommonsDistributionDetachmentMojo.java:138-141 | the full plan stores the digest map, copies every detached artifact, and writes both sidecars of every detached artifact whose name does not contain "asc" |
| StagingPlan.CopyStageFollowsPlan | src/main/java/org/apache/commons/release/plugin/mojos/CommonsDistributionDetachmentMojo.java:196-208 | the copy stage performs a prefix of the planned copies |
| StagingPlan.SignStageFollowsPlan | src/main/java/org/apache/commons/release/plugin/mojos/CommonsDistributionDetachmentMojo.java:218-237 | `SignStage` performs a prefix of the planned sidecars, all of them exactly when it finishes |
| StagingPlan.StageFollowsPlan | src/main/java/org/apache/commons/release/plugin/mojos/CommonsDistributionDetachmentMojo.java:135-141 | `Stage` performs a prefix of the plan, and all of it exactly when it finishes |
| StagingPlan.StageFailures | src/main/java/org/apache/commons/release/plugin/mojos/CommonsDistributionDetachmentMojo.java:135-141 | what each failure after removal leaves written: nothing when the directory cannot be created, only the directory when the digest map cannot be stored, the earlier copies when a copy fails, and every copy plus the earlier sidecars when signing fails |
| StagingPlan.PlanIsInStageOrder | src/main/java/org/apache/commons/release/plugin/mojos/CommonsDistributionDetachmentMojo.java:135-141 | the planned writes go stage by stage: the directory, `sha1.properties`, the copies, then the sidecars |
| StagingPlan.PlannedTextIsSidecar | src/main/java/org/apache/commons/release/plugin/mojos/CommonsDistributionDetachmentMojo.java:218-237 | every planned text file is the `.md5` or `.sha1` of a detached artifact whose name does not contain "asc" |
| StagingPlan.PlannedWritesInDirectory | src/main/java/org/apache/commons/release/plugin/mojos/CommonsDistributionDetachmentMojo.java:135-137 | the plan creates no directory except the working directory and writes only files directly inside it |
| DetachmentProperties.NotDistModuleDoesNothing | src/main/java/org/apache/commons/release/plugin/mojos/CommonsDistributionDetachmentMojo.java:112-116 | outside a distribution module the run returns with nothing read, removed or written, whatever the URL, the environment or the file system |
| DetachmentProperties.NoStagingUrlDoesNothing | src/main/java/org/apache/commons/release/plugin/mojos/CommonsDistributionDetachmentMojo.java:117-120 | with an empty staging URL the run returns with nothing read, removed or written |
| DetachmentProperties.UnreadableArtifactAborts | src/main/java/org/apache/commons/release/plugin/mojos/CommonsDistributionDetachmentMojo.java:122-127 | an unreadable attached artifact fails the run, naming the first such artifact, before any removal or write |
| DetachmentProperties.DetachesAllowListInOrder | src/main/java/org/apache/commons/release/plugin/mojos/CommonsDistributionDetachmentMojo.java:122-127 | the run detaches exactly the attached artifacts of a distribution type, each as often as it is attached, in attached order |
| DetachmentProperties.RecordsSha1OfEveryArtifact | src/main/java/org/apache/commons/release/plugin/mojos/CommonsDistributionDetachmentMojo.java:150-161 | the run records the SHA-1 of every attached artifact under its key and records no other key; when keys repeat, the last artifact's digest wins |
| DetachmentProperties.NoDistributionsDoesNothing | src/main/java/org/apache/commons/release/plugin/mojos/CommonsDistributionDetachmentMojo.java:128-131 | the run ends as "no distributions" exactly when no attached type is on the allow-list, and then nothing is removed or written |
| DetachmentProperties.RemovalPartitionsAttached | src/main/java/org/apache/commons/release/plugin/mojos/CommonsDistributionDetachmentMojo.java:132-134 | after removal the project keeps exactly the non-distribution artifacts, in order, and these together with the detached ones are the original list |
| DetachmentProperties.DetachedAreReadable | src/main/java/org/apache/commons/release/plugin/mojos/CommonsDistributionDetachmentMojo.java:122-127 | every detached artifact has a readable file |
| DetachmentProperties.RunWritesPrefixOfPlan | src/main/java/org/apache/commons/release/plugin/mojos/CommonsDistributionDetachmentMojo.java:132-141 | once something is detached, the run performs a prefix of the staging plan, and all of it exactly when it completes |
| DetachmentProperties.FailuresAfterRemoval | src/main/java/org/apache/commons/release/plugin/mojos/CommonsDistributionDetachmentMojo.java:135-141 | for each failure after removal, the run has written exactly the earlier stages' writes; the failure names the directory, the properties file, the copy's source and target, or the unsigned file's name |
| DetachmentProperties.EffectsInStageOrder | src/main/java/org/apache/commons/release/plugin/mojos/CommonsDistributionDetachmentMojo.java:135-141 | in every run the writes go stage by stage: the directory, then `sha1.properties`, then the copies, then the sidecars |
| DetachmentProperties.SidecarsOnlyForUnsignedFiles | src/main/java/org/apache/commons/release/plugin/mojos/CommonsDistributionDetachmentMojo.java:218-237 | every text file a run writes is the `.md5` or `.sha1` of a detached artifact whose name does not contain "asc", holding the digest of that artifact's bytes and a line separator |
| DetachmentProperties.CompletedRunWritesEverything | src/main/java/org/apache/commons/release/plugin/mojos/CommonsDistributionDetachmentMojo.java:138-141 | a completed run stored the digest map, copied every detached artifact, and wrote both sidecars of every detached artifact whose name does not contain "asc" |
| DetachmentProperties.WritesOnlyInsideWorkingDirectory | src/main/java/org/apache/commons/release/plugin/mojos/CommonsDistributionDetachmentMojo.java:135-141 | a run creates no directory except the working directory, writes only inside it, leaves every file outside it unchanged, and leaves no new file outside it |
| Rerun.ClassifyReadsOnlyArtifactFiles | src/main/java/org/apache/commons/release/plugin/mojos/CommonsDistributionDetachmentMojo.java:150-161 | classification depends on the artifacts' own files and on nothing else in the file system |
| Rerun.CopyStageReadsOnlyArtifactFiles | src/main/java/org/apache/commons/release/plugin/mojos/CommonsDistributionDetachmentMojo.java:196-208 | the copy stage depends on the artifacts' own files and on nothing else in the file system |
| Rerun.SignEachReadsOnlyArtifactFiles | src/main/java/org/apache/commons/release/plugin/mojos/CommonsDistributionDetachmentMojo.java:218-237 | the signing stage depends on the artifacts' own files and on nothing else in the file system |
| Rerun.SignStageReadsOnlyArtifactFiles | src/main/java/org/apache/commons/release/plugin/mojos/CommonsDistributionDetachmentMojo.java:218-237 | `SignStage` depends on the artifacts' own files and on nothing else in the file system |
| Rerun.StageFinishes | src/main/java/org/apache/commons/release/plugin/mojos/CommonsDistributionDetachmentMojo.java:135-141 | `Stage` finishes exactly when the directory exists or can be created, `sha1.properties` can be written, and every copy and sidecar can be written; its writes are then the directory, `sha1.properties`, the copies and the sidecars |
| Rerun.StageInExistingDirectory | src/main/java/org/apache/commons/release/plugin/mojos/CommonsDistributionDetachmentMojo.java:135-141 | when the directory already exists and everything can be written, `Stage` writes `sha1.properties`, the copies and the sidecars and creates nothing |
| Rerun.StageAgain | src/main/java/org/apache/commons/release/plugin/mojos/CommonsDistributionDetachmentMojo.java:135-141 | staging into a directory that now exists repeats a finished staging's writes, minus the directory creation |
| Rerun.CompletedRunKeepsInputs | src/main/java/org/apache/commons/release/plugin/mojos/CommonsDistributionDetachmentMojo.java:135-141 | after a completed run the working directory exists and the artifacts' files outside it are unchanged |
| Rerun.RerunRepeatsWrites | src/main/java/org/apache/commons/release/plugin/mojos/CommonsDistributionDetachmentMojo.java:110-142 | a fresh build of the same project with the same attached artifacts, run over the file system a completed run left, completes again with the same removal and digests and performs the same writes (the same entries for `sha1.properties`), minus the directory creation |
| RunExits.RunExits | src/main/java/org/apache/commons/release/plugin/mojos/CommonsDistributionDetachmentMojo.java:110-142 | `Run` (`execute`) ends as "not a distribution module", "no staging URL", "unreadable artifact", "no distributions" or completed exactly when its condition holds; completion needs a writable directory, `sha1.properties`, and every copy and sidecar |
| StagedFiles.CompletedRunFollowsPlan | src/main/java/org/apache/commons/release/plugin/mojos/CommonsDistributionDetachmentMojo.java:132-141 | a completed run performed exactly the staging plan for what it detached |
| StagedFiles.PlanLeavesDigestMap | src/main/java/org/apache/commons/release/plugin/mojos/CommonsDistributionDetachmentMojo.java:179-187 | after the plan, `sha1.properties` holds the stored digest map with the comment "release sha1s", unless a detached file is itself named `sha1.properties` |
| StagedFiles.PlanLeavesCopy | src/main/java/org/apache/commons/release/plugin/mojos/CommonsDistributionDetachmentMojo.java:196-208 | after the plan, each staged copy holds its artifact's bytes when detached artifacts sharing its name share its bytes and no sidecar takes its name |
| StagedFiles.PlanLeavesSidecars | src/main/java/org/apache/commons/release/plugin/mojos/CommonsDistributionDetachmentMojo.java:218-237 | after the plan, the `.md5` and `.sha1` of an artifact whose name does not contain "asc" hold the encoded hex digest of its bytes and the line separator, when detached artifacts sharing its name share its bytes |
| StagedFiles.CompletedRunLeavesDigestMap | src/main/java/org/apache/commons/release/plugin/mojos/CommonsDistributionDetachmentMojo.java:179-187 | after a completed run, `sha1.properties` in the working directory holds the run's digest map stored with the comment "release sha1s" |
| StagedFiles.CompletedRunLeavesCopy | src/main/java/org/apache/commons/release/plugin/mojos/CommonsDistributionDetachmentMojo.java:196-208 | after a completed run, the working directory holds a byte-for-byte copy of each detached artifact, under the same conditions as the plan |
| StagedFiles.CompletedRunLeavesSidecars | src/main/java/org/apache/commons/release/plugin/mojos/CommonsDistributionDetachmentMojo.java:218-237 | after a completed run, each detached artifact whose name does not contain "asc" has `.md5` and `.sha1` files holding the digests of its bytes and the line separator |
| DetachmentScenario.ScenarioNames | src/main/java/org/apache/commons/release/plugin/mojos/CommonsDistributionDetachmentMojo.java:220 | `app.zip` needs sidecars and `app.zip.asc` does not |
| DetachmentScenario.JarZipAndSignature | src/main/java/org/apache/commons/release/plugin/mojos/CommonsDistributionDetachmentMojo.java:110-142 | for a jar, a zip and the zip's signature: the run completes, the jar stays attached, all three SHA-1s are recorded, and the writes are exactly `sha1.properties`, the two copies, then the zip's `.md5` and `.sha1` |

## Left out

- Real MD5 and SHA-1: these are parameters of the environment (`md5Hex`, `sha1Hex`), not implementations of RFC 1321 or FIPS 180-4.
- The text format `Properties.store` writes (escaping, the date comment, entry order) is a parameter of the environment (`storeFormat`). The model keeps the entries and the comment "release sha1s".
- Rerun.RerunRepeatsWrites: `Properties.store` writes a line with the current date, so two runs write different `sha1.properties` bytes. `storeFormat` is a pure function here, so the lemma promises only the same entries and comment. The lemma is about a fresh build with the same attached artifacts. A second `execute` on the same `MavenProject` instance finds the archives already removed and ends as "no distributions".
- StagedFiles.CompletedRunLeavesCopy, StagedFiles.CompletedRunLeavesSidecars, StagedFiles.CompletedRunLeavesDigestMap: when two detached files share a name with different bytes, or a file is named `sha1.properties` or like another file's sidecar, a later write replaces an earlier one. For those cases the model states only that the last write wins (`Files.ApplyLeavesLastWrites`).
- Logging (`getLog()`) has no effect on the outcome and is not modelled.
- Maven's `MavenProject`, parameter injection and defaults are not modelled. The configuration is a record: `isDistModule`, the staging URL and the working directory.
- A null `distSvnStagingUrl` is modelled as the empty string, which `StringUtils.isEmpty` treats the same way.
- Artifact equality in `List.remove` is structural here, and the classifier is not modelled. Maven's `equals` compares the coordinates and the classifier. Removal still takes out exactly the detached artifacts, because each one is taken from the attached list itself.
- Artifacts.Sha1Key: the key leaves out the classifier, so the `-src.zip` and `-bin.zip` of one release (type `zip`, different classifiers) share a key and the last one's SHA-1 wins. The model keeps that behaviour; with the classifier dropped, it cannot name the two archives apart.
- `SharedFunctions.initDirectory` and `SharedFunctions.copyFile` are not part of this model. Each is a single write that fails when its target is unwritable; partial copies and partially written files are not modelled.
- A `PrintWriter` swallows write errors after the file is opened. The model treats a sidecar write as failing only when the file cannot be opened, that is, when its path is unwritable.
- Read failures during signing are not modelled: the model reads from the snapshot the classification pass read, so the detached files stay readable.
- Paths are opaque strings joined with '/'. `getAbsolutePath`, normalisation and platform separators are not modelled. `File.getName` is the text after the last '/'.
- The detached list and the digest map start empty on every run, as in a fresh mojo instance. State kept between two `execute` calls on one instance is not modelled.
- Exception messages are modelled by the fields that identify the failure, not by their full text. The causing `IOException` is not modelled.

=== FILE: artifacts.dfy ===
/** Build artifacts as the detachment step sees them: four coordinates and a backing file,
    the fixed allow-list of distribution types, the `sha1.properties` key, and the names of
    the files the step writes into its working directory. */
module Artifacts {

  newtype byte = x: int | 0 <= x < 256

  type Bytes = seq<byte>

  /** A file-system path; the working directory is an opaque, already absolute prefix. */
  type Path = string

  datatype Artifact = Artifact(
    groupId: string,
    artifactId: string,
    version: string,
    artifactType: string,
    file: Path)

  /** The distribution archives and their signatures, matched exactly and case-sensitively. */
  const DetachableTypes: set<string> := {"zip", "tar.gz", "zip.asc", "tar.gz.asc"}

  predicate IsDetachable(a: Artifact) {
    a.artifactType in DetachableTypes
  }

  /** Membership is exact string equality with one of the four tags: no prefix, suffix or
      case-insensitive match. */
  lemma DetachableTypesAreExact(t: string)
    ensures t in DetachableTypes <==> t == "zip" || t == "tar.gz" || t == "zip.asc" || t == "tar.gz.asc"
    ensures "ZIP" !in DetachableTypes && "tar" !in DetachableTypes && "src.zip" !in DetachableTypes
  {
  }

  predicate IsKept(a: Artifact) {
    !IsDetachable(a)
  }

  /** `groupId-artifactId-version-type`, the key under which an artifact's SHA-1 is recorded. */
  function Sha1Key(a: Artifact): string {
    a.groupId + "-" + a.artifactId + "-" + a.version + "-" + a.artifactType
  }

  /** The last name element of a path (what `java.io.File.getName` returns for a normalised
      path): everything after the last '/'. */
  function BaseName(p: Path): string
    decreases |p|
  {
    if |p| == 0 || p[|p| - 1] == '/' then []
    else BaseName(p[..|p| - 1]) + [p[|p| - 1]]
  }

  /** The base name, character by character: it is the end of the path, holds no '/', and is
      preceded by a '/' when it is not the whole path. */
  lemma {:induction false} BaseNameSuffix(p: Path)
    ensures var n := BaseName(p);
      && |n| <= |p|
      && (forall i :: 0 <= i < |n| ==> n[i] == p[|p| - |n| + i])
      && '/' !in n
      && (|n| < |p| ==> p[|p| - |n| - 1] == '/')
    decreases |p|
  {
    if |p| > 0 && p[|p| - 1] != '/' {
      var q := p[..|p| - 1];
      BaseNameSuffix(q);
      var m := BaseName(q);
      var n := BaseName(p);
      assert n == m + [p[|p| - 1]];
      forall i | 0 <= i < |n|
        ensures n[i] == p[|p| - |n| + i]
      {
        if i < |m| {
          assert n[i] == m[i] == q[|q| - |m| + i];
        }
      }
      assert '/' !in n by {
        forall i | 0 <= i < |n|
          ensures n[i] != '/'
        {
          if i < |m| { assert n[i] == m[i]; }
        }
      }
    }
  }

  /** The base name is the longest suffix of the path that holds no '/'. */
  lemma BaseNameIsLastElement(p: Path)
    ensures var n := BaseName(p);
      '/' !in n && |n| <= |p| && p[|p| - |n|..] == n && (|n| < |p| ==> p[|p| - |n| - 1] == '/')
  {
    BaseNameSuffix(p);
    assert p[|p| - |BaseName(p)|..] == BaseName(p);
  }

  /** The base name of a file directly inside `dir` is the file's own name. */
  lemma {:induction false} BaseNameOfChild(dir: Path, n: string)
    requires '/' !in n
    ensures BaseName(InDirectory(dir, n)) == n
    decreases |n|
  {
    var p := InDirectory(dir, n);
    if |n| > 0 {
      var m := n[..|n| - 1];
      assert '/' !in m by {
        assert forall i :: 0 <= i < |m| ==> m[i] == n[i];
      }
      BaseNameOfChild(dir, m);
      assert p[..|p| - 1] == InDirectory(dir, m);
      assert n == m + [n[|n| - 1]];
    }
  }

  function FileName(a: Artifact): string {
    BaseName(a.file)
  }

  /** `String.contains`: `part` occurs somewhere in `s` as a contiguous block. */
  predicate Contains(s: string, part: string)
    decreases |s|
  {
    part <= s || (|s| > 0 && Contains(s[1..], part))
  }

  /** `part` occurs in `s` starting at index `i`. */
  predicate OccursAt(s: string, part: string, i: int) {
    0 <= i <= |s| - |part| && s[i..i + |part|] == part
  }

  /** `Contains` means an occurrence at some index. */
  lemma {:induction false} ContainsIsOccurrence(s: string, part: string)
    ensures Contains(s, part) <==> exists i :: OccursAt(s, part, i)
    decreases |s|
  {
    if part <= s {
      assert OccursAt(s, part, 0);
    } else if |s| > 0 {
      var t := s[1..];
      ContainsIsOccurrence(t, part);
      forall i | 0 <= i <= |t| - |part|
        ensures OccursAt(t, part, i) <==> OccursAt(s, part, i + 1)
      {
        var here, there := t[i..i + |part|], s[i + 1..i + 1 + |part|];
        assert forall k :: 0 <= k < |part| ==> here[k] == there[k];
        assert here == there;
      }
      if Contains(t, part) {
        var i :| OccursAt(t, part, i);
        assert OccursAt(s, part, i + 1);
      }
      if exists i :: OccursAt(s, part, i) {
        var i :| OccursAt(s, part, i);
        assert i != 0;
        assert OccursAt(t, part, i - 1);
      }
    }
  }

  lemma OccurrenceIsContained(s: string, part: string, i: int)
    requires OccursAt(s, part, i)
    ensures Contains(s, part)
  {
    ContainsIsOccurrence(s, part);
  }

  /** A string missing one of the characters of `part` does not contain `part`. */
  lemma NotContainedWithoutCharacter(s: string, part: string, k: int)
    requires 0 <= k < |part| && part[k] !in s
    ensures !Contains(s, part)
  {
    ContainsIsOccurrence(s, part);
  }

  /** Signature files (any name holding "asc") get no digest sidecars of their own. */
  predicate NeedsSidecars(a: Artifact) {
    !Contains(FileName(a), "asc")
  }

  /** The test is on the whole file name, not its extension: a distribution archive whose
      name merely holds the letters "asc" gets no sidecars either. */
  lemma AscAnywhereInNameSkipsSidecars(dir: Path)
    ensures var a := Artifact("org", "javascript", "1.0", "zip", InDirectory(dir, "javascript-1.0-src.zip"));
      IsDetachable(a) && !NeedsSidecars(a)
  {
    var name := "javascript-1.0-src.zip";
    BaseNameOfChild(dir, name);
    assert name[3..6] == "asc";
    OccurrenceIsContained(name, "asc", 3);
  }

  /** The path of a file named `name` directly inside `dir`. */
  function InDirectory(dir: Path, name: string): Path {
    dir + "/" + name
  }

  const PropertiesFileName: string := "sha1.properties"

  function PropertiesPath(dir: Path): Path {
    InDirectory(dir, PropertiesFileName)
  }

  /** Where the copy of a detached artifact goes. */
  function StagedPath(dir: Path, a: Artifact): Path {
    InDirectory(dir, FileName(a))
  }

  function Md5Path(dir: Path, a: Artifact): Path {
    StagedPath(dir, a) + ".md5"
  }

  function Sha1Path(dir: Path, a: Artifact): Path {
    StagedPath(dir, a) + ".sha1"
  }

  /** A file of `dir` named `n` with `ext` appended is the file of `dir` named `n + ext`, and
      that is its base name, when neither part holds a '/'. */
  lemma SuffixedChild(dir: Path, n: string, ext: string)
    requires '/' !in n && '/' !in ext
    ensures InDirectory(dir, n) + ext == InDirectory(dir, n + ext)
    ensures BaseName(InDirectory(dir, n + ext)) == n + ext
  {
    assert '/' !in n + ext by {
      forall i | 0 <= i < |n + ext|
        ensures (n + ext)[i] != '/'
      {
        if i < |n| { assert (n + ext)[i] == n[i]; } else { assert (n + ext)[i] == ext[i - |n|]; }
      }
    }
    BaseNameOfChild(dir, n + ext);
  }

  /** `getMd5FilePath` and `getSha1FilePath`: the sidecars lie directly in the working
      directory and are named after the staged copy with ".md5" and ".sha1" appended. */
  lemma SidecarFileNames(dir: Path, a: Artifact)
    ensures BaseName(StagedPath(dir, a)) == FileName(a)
    ensures Md5Path(dir, a) == InDirectory(dir, FileName(a) + ".md5")
      && BaseName(Md5Path(dir, a)) == FileName(a) + ".md5"
    ensures Sha1Path(dir, a) == InDirectory(dir, FileName(a) + ".sha1")
      && BaseName(Sha1Path(dir, a)) == FileName(a) + ".sha1"
  {
    BaseNameIsLastElement(a.file);
    BaseNameOfChild(dir, FileName(a));
    SuffixedChild(dir, FileName(a), ".md5");
    SuffixedChild(dir, FileName(a), ".sha1");
  }

  /** Appending a common suffix, or prefixing a common prefix, is injective. */
  lemma AppendCancel(x: string, y: string, prefix: string, suffix: string)
    ensures prefix + x + suffix == prefix + y + suffix <==> x == y
  {
    if prefix + x + suffix == prefix + y + suffix {
      var l := prefix + x + suffix;
      assert |x| == |y|;
      assert x == l[|prefix|..|prefix| + |x|];
      assert y == (prefix + y + suffix)[|prefix|..|prefix| + |y|];
    }
  }

  /** In one working directory, the staged copies and each kind of sidecar are named after the
      artifact's file name and nothing else; an `.md5` file never collides with a `.sha1` file. */
  lemma {:induction false} WorkingDirectoryNames(dir: Path, a: Artifact, b: Artifact)
    ensures StagedPath(dir, a) == StagedPath(dir, b) <==> FileName(a) == FileName(b)
    ensures Md5Path(dir, a) == Md5Path(dir, b) <==> FileName(a) == FileName(b)
    ensures Sha1Path(dir, a) == Sha1Path(dir, b) <==> FileName(a) == FileName(b)
    ensures Md5Path(dir, a) != Sha1Path(dir, b)
  {
    AppendCancel(FileName(a), FileName(b), dir + "/", "");
    AppendCancel(FileName(a), FileName(b), dir + "/", ".md5");
    AppendCancel(FileName(a), FileName(b), dir + "/", ".sha1");
    var m := Md5Path(dir, a);
    var s := Sha1Path(dir, b);
    assert m[|m| - 1] == '5';
    assert s[|s| - 1] == '1';
  }

  /** `sha1.properties` lies directly inside the working directory. */
  lemma PropertiesPathInDirectory(dir: Path)
    ensures dir + "/" <= PropertiesPath(dir)
  {
    var p := dir + "/";
    assert PropertiesPath(dir)[..|p|] == p;
  }

  /** Every file the step writes lies directly inside its working directory. */
  lemma WrittenPathsInDirectory(dir: Path, a: Artifact)
    ensures dir + "/" <= PropertiesPath(dir)
    ensures dir + "/" <= StagedPath(dir, a) && dir + "/" <= Md5Path(dir, a) && dir + "/" <= Sha1Path(dir, a)
  {
    var p := dir + "/";
    assert StagedPath(dir, a)[..|p|] == p;
    assert Md5Path(dir, a)[..|p|] == p;
    assert Sha1Path(dir, a)[..|p|] == p;
    PropertiesPathInDirectory(dir);
  }

  /** When `x` holds no hyphen, the first hyphen of `x + "-" + r` is at index `|x|`. */
  lemma FirstHyphen(x: string, r: string)
    requires '-' !in x
    ensures (x + "-" + r)[|x|] == '-'
    ensures forall i :: 0 <= i < |x| ==> (x + "-" + r)[i] != '-'
  {
    forall i | 0 <= i < |x|
      ensures (x + "-" + r)[i] != '-'
    {
      assert (x + "-" + r)[i] == x[i];
    }
  }

  /** If `x` and `y` hold no hyphen, the first hyphen of `x + "-" + r` separates `x` from `r`. */
  lemma SplitAtFirstHyphen(x: string, r: string, y: string, r': string)
    requires '-' !in x && '-' !in y
    requires x + "-" + r == y + "-" + r'
    ensures x == y && r == r'
  {
    var l := x + "-" + r;
    FirstHyphen(x, r);
    FirstHyphen(y, r');
    assert |x| == |y|;
    assert x == l[..|x|] && y == l[..|y|];
    assert r == l[|x| + 1..] && r' == (y + "-" + r')[|y| + 1..];
  }

  /** The key identifies the artifact's coordinates as long as group, artifact id and version
      hold no hyphen (the type, the last part, may). */
  lemma {:induction false} Sha1KeyInjective(a: Artifact, b: Artifact)
    requires '-' !in a.groupId && '-' !in a.artifactId && '-' !in a.version
    requires '-' !in b.groupId && '-' !in b.artifactId && '-' !in b.version
    requires Sha1Key(a) == Sha1Key(b)
    ensures a.groupId == b.groupId && a.artifactId == b.artifactId
    ensures a.version == b.version && a.artifactType == b.artifactType
  {
    var ra := a.artifactId + "-" + a.version + "-" + a.artifactType;
    var rb := b.artifactId + "-" + b.version + "-" + b.artifactType;
    assert Sha1Key(a) == a.groupId + "-" + ra;
    assert Sha1Key(b) == b.groupId + "-" + rb;
    SplitAtFirstHyphen(a.groupId, ra, b.groupId, rb);
    var sa := a.version + "-" + a.artifactType;
    var sb := b.version + "-" + b.artifactType;
    assert ra == a.artifactId + "-" + sa;
    assert rb == b.artifactId + "-" + sb;
    SplitAtFirstHyphen(a.artifactId, sa, b.artifactId, sb);
    SplitAtFirstHyphen(a.version, a.artifactType, b.version, b.artifactType);
  }

  /** With hyphens inside the coordinates, different artifacts can share one key. */
  lemma Sha1KeyAmbiguous()
    ensures Sha1Key(Artifact("org", "a-b", "1", "zip", "x.zip"))
         == Sha1Key(Artifact("org-a", "b", "1", "zip", "x.zip"))
  {
  }
}

=== FILE: detachment.dfy ===
/** The `detach-distributions` step: gate on the configuration, record a SHA-1 for every
    attached artifact while collecting the distribution archives, remove those from the
    project, and stage copies, the digest map and the `.md5`/`.sha1` sidecars into the working
    directory. Every stage stops at its first failure; writes already done stay done. */
module Detachment {
  import opened Sequences
  import opened Artifacts
  import opened Files

  datatype Config = Config(isDistModule: bool, distSvnStagingUrl: string, workingDirectory: Path)

  /** The causes the step reports when it aborts. */
  datatype Failure =
    | UnreadableArtifact(artifactId: string, version: string, artifactType: string)
    | DirectoryNotCreated(dir: Path)
    | PropertiesNotWritten(file: Path)
    | CopyFailed(source: Path, target: Path)
    | SignFailed(fileName: string)

  /** How a run ends: three successful no-op exits, completion, or the first failure. */
  datatype Exit =
    | NotDistModule
    | NoStagingUrl
    | NoDistributions
    | Completed
    | Failed(failure: Failure)

  /** What a run leaves behind: its exit, the project's attached artifacts afterwards, the
      detached artifacts and the digest map it computed, and the writes it performed. */
  datatype Outcome = Outcome(
    exit: Exit,
    attached: seq<Artifact>,
    detached: seq<Artifact>,
    sha1s: map<string, string>,
    effects: seq<Effect>)

  datatype Classification = Classification(detached: seq<Artifact>, sha1s: map<string, string>)

  datatype Classified = Classified(value: Classification) | Unclassified(failure: Failure)

  /** A stage over a list either finishes or aborts; both report the writes done so far. */
  datatype Progress = Finished(effects: seq<Effect>) | Aborted(effects: seq<Effect>, failure: Failure)

  const PropertiesComment: string := "release sha1s"

  predicate Readable(fs: FileSystem, a: Artifact) {
    a.file in fs.files
  }

  /** No later artifact of `s` shares the key of `s[i]`. */
  predicate LastWithKey(s: seq<Artifact>, i: int)
    requires 0 <= i < |s|
  {
    forall j :: i < j < |s| ==> Sha1Key(s[j]) != Sha1Key(s[i])
  }

  /** The classification pass over the attached artifacts, in order: each one's file is read
      and its SHA-1 recorded under its key (a later artifact with the same key overwrites an
      earlier one), and the distribution types are collected. The first unreadable file
      aborts the pass. */
  function Classify(env: Environment, fs: FileSystem, attached: seq<Artifact>): (r: Classified)
    ensures r.Classified? <==> forall i :: 0 <= i < |attached| ==> Readable(fs, attached[i])
    decreases |attached|
  {
    if |attached| == 0 then Classified(Classification([], map[]))
    else
      var n := |attached| - 1;
      var a := attached[n];
      match Classify(env, fs, attached[..n])
      case Unclassified(f) => Unclassified(f)
      case Classified(prior) =>
        if !Readable(fs, a) then
          Unclassified(UnreadableArtifact(a.artifactId, a.version, a.artifactType))
        else
          Classified(Classification(
            prior.detached + (if IsDetachable(a) then [a] else []),
            prior.sha1s[Sha1Key(a) := env.sha1Hex(fs.files[a.file])]))
  }

  /** A failed classification names the first attached artifact whose file cannot be read. */
  lemma {:induction false} ClassifyFailsAtFirstUnreadable(env: Environment, fs: FileSystem, attached: seq<Artifact>)
    ensures Classify(env, fs, attached).Unclassified? ==>
      exists i :: 0 <= i < |attached| && !Readable(fs, attached[i])
        && (forall j :: 0 <= j < i ==> Readable(fs, attached[j]))
        && Classify(env, fs, attached).failure
           == UnreadableArtifact(attached[i].artifactId, attached[i].version, attached[i].artifactType)
    decreases |attached|
  {
    if |attached| > 0 {
      var n := |attached| - 1;
      var prefix := attached[..n];
      ClassifyFailsAtFirstUnreadable(env, fs, prefix);
      var r := Classify(env, fs, attached);
      if Classify(env, fs, prefix).Unclassified? {
        var i :| 0 <= i < n && !Readable(fs, prefix[i])
          && (forall j :: 0 <= j < i ==> Readable(fs, prefix[j]))
          && Classify(env, fs, prefix).failure
             == UnreadableArtifact(prefix[i].artifactId, prefix[i].version, prefix[i].artifactType);
        assert forall j :: 0 <= j <= i ==> prefix[j] == attached[j];
        assert r.failure == Classify(env, fs, prefix).failure;
        assert !Readable(fs, attached[i]) && (forall j :: 0 <= j < i ==> Readable(fs, attached[j]));
      } else if r.Unclassified? {
        assert forall j :: 0 <= j < n ==> prefix[j] == attached[j];
        assert !Readable(fs, attached[n]) && (forall j :: 0 <= j < n ==> Readable(fs, attached[j]));
        assert r.failure == UnreadableArtifact(attached[n].artifactId, attached[n].version, attached[n].artifactType);
      }
    }
  }

  /** The detached list is the allow-list filter of the attached list, in attached order. */
  lemma {:induction false} ClassifyDetachesFilter(env: Environment, fs: FileSystem, attached: seq<Artifact>)
    ensures Classify(env, fs, attached).Classified? ==>
      Classify(env, fs, attached).value.detached == Filter(IsDetachable, attached)
    decreases |attached|
  {
    if |attached| > 0 {
      var n := |attached| - 1;
      ClassifyDetachesFilter(env, fs, attached[..n]);
      assert attached == attached[..n] + [attached[n]];
      FilterSnoc(IsDetachable, attached[..n], attached[n]);
    }
  }

  /** Every attached artifact, detached or not, has an entry under its key, and there are no
      other entries. */
  lemma {:induction false} ClassifyRecordsKeys(env: Environment, fs: FileSystem, attached: seq<Artifact>)
    ensures Classify(env, fs, attached).Classified? ==>
      Classify(env, fs, attached).value.sha1s.Keys == set a | a in attached :: Sha1Key(a)
    decreases |attached|
  {
    var r := Classify(env, fs, attached);
    if |attached| > 0 && r.Classified? {
      var n := |attached| - 1;
      var a := attached[n];
      var prefix := attached[..n];
      ClassifyRecordsKeys(env, fs, prefix);
      var prior := Classify(env, fs, prefix).value;
      assert r.value.sha1s.Keys == prior.sha1s.Keys + {Sha1Key(a)};
      assert attached == prefix + [a];
      KeysOfSnoc(prefix, a);
    }
  }

  /** The keys of a list with one more artifact are the keys of the list and that artifact's. */
  lemma KeysOfSnoc(s: seq<Artifact>, a: Artifact)
    ensures (set b | b in s + [a] :: Sha1Key(b)) == (set b | b in s :: Sha1Key(b)) + {Sha1Key(a)}
  {
    var l := set b | b in s + [a] :: Sha1Key(b);
    var r := (set b | b in s :: Sha1Key(b)) + {Sha1Key(a)};
    forall k | k in l
      ensures k in r
    {
      var b :| b in s + [a] && Sha1Key(b) == k;
      if b != a {
        assert b in s;
      }
    }
    forall k | k in r
      ensures k in l
    {
      if k != Sha1Key(a) {
        var b :| b in s && Sha1Key(b) == k;
        assert b in s + [a];
      } else {
        assert a in s + [a];
      }
    }
  }

  /** Where several artifacts share a key, the entry holds the SHA-1 of the last one's file. */
  lemma {:induction false} ClassifyRecordsSha1s(env: Environment, fs: FileSystem, attached: seq<Artifact>)
    ensures Classify(env, fs, attached).Classified? ==>
      forall i :: 0 <= i < |attached| && LastWithKey(attached, i) ==>
        Sha1Key(attached[i]) in Classify(env, fs, attached).value.sha1s
        && Classify(env, fs, attached).value.sha1s[Sha1Key(attached[i])] == env.sha1Hex(fs.files[attached[i].file])
    decreases |attached|
  {
    var r := Classify(env, fs, attached);
    if |attached| > 0 && r.Classified? {
      var n := |attached| - 1;
      var a := attached[n];
      var prefix := attached[..n];
      ClassifyRecordsSha1s(env, fs, prefix);
      var prior := Classify(env, fs, prefix).value;
      assert r.value.sha1s == prior.sha1s[Sha1Key(a) := env.sha1Hex(fs.files[a.file])];
      forall i | 0 <= i < |attached| && LastWithKey(attached, i)
        ensures Sha1Key(attached[i]) in r.value.sha1s
        ensures r.value.sha1s[Sha1Key(attached[i])] == env.sha1Hex(fs.files[attached[i].file])
      {
        if i < n {
          assert Sha1Key(a) != Sha1Key(attached[i]);
          assert prefix[i] == attached[i];
          assert LastWithKey(prefix, i);
        }
      }
    }
  }

  predicate CanCopy(env: Environment, fs: FileSystem, dir: Path, a: Artifact) {
    Readable(fs, a) && StagedPath(dir, a) !in env.unwritable
  }

  /** The copy of a detached artifact's file into the working directory. */
  function CopyOf(fs: FileSystem, dir: Path, a: Artifact): Effect
    requires Readable(fs, a)
  {
    CopyFile(a.file, StagedPath(dir, a), fs.files[a.file])
  }

  /** The staging stage: each detached artifact, in order, is copied byte for byte to
      `dir/<file name>`, overwriting what is there; the first failed copy aborts the stage. */
  function CopyStage(env: Environment, fs: FileSystem, dir: Path, ds: seq<Artifact>): (p: Progress)
    ensures |p.effects| <= |ds|
    ensures forall i :: 0 <= i < |p.effects| ==>
      CanCopy(env, fs, dir, ds[i]) && p.effects[i] == CopyOf(fs, dir, ds[i])
    ensures p.Finished? <==> forall i :: 0 <= i < |ds| ==> CanCopy(env, fs, dir, ds[i])
    ensures p.Finished? ==> |p.effects| == |ds|
    ensures p.Aborted? ==>
      |p.effects| < |ds| && !CanCopy(env, fs, dir, ds[|p.effects|])
      && p.failure == CopyFailed(ds[|p.effects|].file, StagedPath(dir, ds[|p.effects|]))
    decreases |ds|
  {
    if |ds| == 0 then Finished([])
    else if !CanCopy(env, fs, dir, ds[0]) then Aborted([], CopyFailed(ds[0].file, StagedPath(dir, ds[0])))
    else
      var rest := CopyStage(env, fs, dir, ds[1..]);
      var effects := [CopyOf(fs, dir, ds[0])] + rest.effects;
      if rest.Finished? then Finished(effects) else Aborted(effects, rest.failure)
  }

  predicate CanWriteMd5(env: Environment, fs: FileSystem, dir: Path, a: Artifact) {
    Readable(fs, a) && Md5Path(dir, a) !in env.unwritable
  }

  predicate CanSign(env: Environment, fs: FileSystem, dir: Path, a: Artifact) {
    CanWriteMd5(env, fs, dir, a) && Sha1Path(dir, a) !in env.unwritable
  }

  /** `dir/<file name>.md5`, holding the MD5 of the artifact's own file and a line end. */
  function Md5Sidecar(env: Environment, fs: FileSystem, dir: Path, a: Artifact): Effect
    requires Readable(fs, a)
  {
    WriteText(Md5Path(dir, a), env.md5Hex(fs.files[a.file]) + env.lineSeparator)
  }

  /** `dir/<file name>.sha1`, holding the SHA-1 of the artifact's own file and a line end. */
  function Sha1Sidecar(env: Environment, fs: FileSystem, dir: Path, a: Artifact): Effect
    requires Readable(fs, a)
  {
    WriteText(Sha1Path(dir, a), env.sha1Hex(fs.files[a.file]) + env.lineSeparator)
  }

  /** The signing stage: each detached artifact whose file name does not contain "asc" gets
      its `.md5` and then its `.sha1` sidecar, in detached order; names containing "asc" are
      skipped. */
  function SignStage(env: Environment, fs: FileSystem, dir: Path, ds: seq<Artifact>): Progress {
    SignEach(env, fs, dir, Filter(NeedsSidecars, ds))
  }

  /** The position of the first artifact of `ss` whose sidecars cannot be written, or `|ss|`
      when there is none. */
  function FirstUnsignable(env: Environment, fs: FileSystem, dir: Path, ss: seq<Artifact>): (m: nat)
    ensures m <= |ss|
    ensures forall k :: 0 <= k < m ==> CanSign(env, fs, dir, ss[k])
    ensures m < |ss| ==> !CanSign(env, fs, dir, ss[m])
    decreases |ss|
  {
    if |ss| == 0 || !CanSign(env, fs, dir, ss[0]) then 0
    else 1 + FirstUnsignable(env, fs, dir, ss[1..])
  }

  /** Writes the two sidecars of each artifact of `ss` in order. A failed read or sidecar
      write aborts, keeping the sidecars already written (including the `.md5` of the
      artifact whose `.sha1` could not be written). */
  function SignEach(env: Environment, fs: FileSystem, dir: Path, ss: seq<Artifact>): (p: Progress)
    ensures var m := FirstUnsignable(env, fs, dir, ss);
      p.Finished? <==> m == |ss|
    ensures p.Finished? ==> |p.effects| == 2 * |ss|
    ensures var m := FirstUnsignable(env, fs, dir, ss);
      p.Aborted? ==>
        p.failure == SignFailed(FileName(ss[m]))
        && |p.effects| == 2 * m + (if CanWriteMd5(env, fs, dir, ss[m]) then 1 else 0)
    decreases |ss|
  {
    if |ss| == 0 then Finished([])
    else
      var a := ss[0];
      if !CanWriteMd5(env, fs, dir, a) then Aborted([], SignFailed(FileName(a)))
      else if !CanSign(env, fs, dir, a) then Aborted([Md5Sidecar(env, fs, dir, a)], SignFailed(FileName(a)))
      else
        var rest := SignEach(env, fs, dir, ss[1..]);
        var effects := [Md5Sidecar(env, fs, dir, a), Sha1Sidecar(env, fs, dir, a)] + rest.effects;
        if rest.Finished? then Finished(effects) else Aborted(effects, rest.failure)
  }

  /** The two sidecars of every artifact of `xs`, in order: the plan the signing stage
      follows when no read or write fails. */
  function AllSidecars(env: Environment, fs: FileSystem, dir: Path, xs: seq<Artifact>): (r: seq<Effect>)
    requires forall a :: a in xs ==> Readable(fs, a)
    ensures |r| == 2 * |xs|
    ensures forall e :: e in r <==>
      exists i :: 0 <= i < |xs| && (e == Md5Sidecar(env, fs, dir, xs[i]) || e == Sha1Sidecar(env, fs, dir, xs[i]))
    decreases |xs|
  {
    if |xs| == 0 then []
    else
      var rest := AllSidecars(env, fs, dir, xs[1..]);
      assert forall i :: 1 <= i < |xs| ==> xs[i] == xs[1..][i - 1];
      [Md5Sidecar(env, fs, dir, xs[0]), Sha1Sidecar(env, fs, dir, xs[0])] + rest
  }

  /** The signing stage writes the planned sidecars of every artifact before the first one it
      cannot sign, then, if that artifact's `.md5` could be written, that `.md5` alone. */
  lemma {:induction false} SignEachFollowsPlan(env: Environment, fs: FileSystem, dir: Path, ss: seq<Artifact>)
    ensures var m := FirstUnsignable(env, fs, dir, ss);
      SignEach(env, fs, dir, ss).effects
      == AllSidecars(env, fs, dir, ss[..m])
         + (if m < |ss| && CanWriteMd5(env, fs, dir, ss[m]) then [Md5Sidecar(env, fs, dir, ss[m])] else [])
    decreases |ss|
  {
    if |ss| > 0 && CanSign(env, fs, dir, ss[0]) {
      SignEachFollowsPlan(env, fs, dir, ss[1..]);
      var a := ss[0];
      var m' := FirstUnsignable(env, fs, dir, ss[1..]);
      var m := m' + 1;
      assert FirstUnsignable(env, fs, dir, ss) == m;
      TakeAfterHead(ss, m);
      var head := [Md5Sidecar(env, fs, dir, a), Sha1Sidecar(env, fs, dir, a)];
      assert SignEach(env, fs, dir, ss).effects == head + SignEach(env, fs, dir, ss[1..]).effects;
      var plan := AllSidecars(env, fs, dir, ss[1..][..m']);
      assert AllSidecars(env, fs, dir, ss[..m]) == head + plan;
      var tail := if m < |ss| && CanWriteMd5(env, fs, dir, ss[m]) then [Md5Sidecar(env, fs, dir, ss[m])] else [];
      assert SignEach(env, fs, dir, ss[1..]).effects == plan + tail;
      AppendAssociative(head, plan, tail);
    } else if |ss| > 0 {
      assert FirstUnsignable(env, fs, dir, ss) == 0;
      assert ss[..0] == [];
    }
  }

  /** The configuration lets the step run: a distribution module with a staging URL. */
  predicate Proceeds(config: Config) {
    config.isDistModule && |config.distSvnStagingUrl| > 0
  }

  /** The working-directory creation the step performs: none when the directory exists. */
  function MadeDirectory(fs: FileSystem, dir: Path): seq<Effect> {
    if Exists(fs, dir) then [] else [MakeDirectory(dir)]
  }

  /** Everything after removal: create the working directory if it does not exist, store
      the digest map as `sha1.properties`, copy the detached artifacts, write the sidecars. */
  function Stage(env: Environment, fs: FileSystem, dir: Path, c: Classification): Progress {
    if !Exists(fs, dir) && dir in env.unwritable then Aborted([], DirectoryNotCreated(dir))
    else
      var made := MadeDirectory(fs, dir);
      if PropertiesPath(dir) in env.unwritable then Aborted(made, PropertiesNotWritten(PropertiesPath(dir)))
      else
        var stored := made + [StoreProperties(PropertiesPath(dir), c.sha1s, PropertiesComment)];
        match CopyStage(env, fs, dir, c.detached)
        case Aborted(copies, f) => Aborted(stored + copies, f)
        case Finished(copies) =>
          match SignStage(env, fs, dir, c.detached)
          case Aborted(sidecars, f) => Aborted(stored + copies + sidecars, f)
          case Finished(sidecars) => Finished(stored + copies + sidecars)
  }

  /** The whole step (`execute`). */
  function Run(env: Environment, config: Config, attached: seq<Artifact>, fs: FileSystem): Outcome {
    if !config.isDistModule then Outcome(NotDistModule, attached, [], map[], [])
    else if |config.distSvnStagingUrl| == 0 then Outcome(NoStagingUrl, attached, [], map[], [])
    else match Classify(env, fs, attached)
      case Unclassified(f) => Outcome(Failed(f), attached, [], map[], [])
      case Classified(c) =>
        if |c.detached| == 0 then Outcome(NoDistributions, attached, c.detached, c.sha1s, [])
        else
          var staged := Stage(env, fs, config.workingDirectory, c);
          Outcome(
            if staged.Finished? then Completed else Failed(staged.failure),
            RemoveEach(attached, c.detached), c.detached, c.sha1s, staged.effects)
  }
}

=== FILE: files.dfy ===
/** The file system the step reads, the writes it performs, and the collaborators whose code
    is outside the model (digest algorithms, text encoding, the properties file format, and
    which writes the operating system refuses). */
module Files {
  import opened Artifacts

  datatype FileSystem = FileSystem(files: map<Path, Bytes>, dirs: set<Path>)

  /** `java.io.File.exists`: a regular file or a directory. */
  predicate Exists(fs: FileSystem, p: Path) {
    p in fs.files || p in fs.dirs
  }

  /** One write to the file system, in the order the step performs them. */
  datatype Effect =
    | MakeDirectory(dir: Path)
    | StoreProperties(file: Path, entries: map<string, string>, comment: string)
    | CopyFile(source: Path, target: Path, data: Bytes)
    | WriteText(file: Path, text: string)
  {
    /** The path this effect creates or overwrites. */
    function Target(): Path {
      match this
      case MakeDirectory(d) => d
      case StoreProperties(f, _, _) => f
      case CopyFile(_, t, _) => t
      case WriteText(f, _) => f
    }
  }

  /** The stage of the step an effect belongs to: directory creation, digest map, copies,
      sidecars. */
  function Phase(e: Effect): nat {
    match e
    case MakeDirectory(_) => 0
    case StoreProperties(_, _, _) => 1
    case CopyFile(_, _, _) => 2
    case WriteText(_, _) => 3
  }

  /** Earlier effects never belong to a later stage than later effects. */
  predicate InStageOrder(s: seq<Effect>) {
    forall i, j :: 0 <= i < j < |s| ==> Phase(s[i]) <= Phase(s[j])
  }

  /** Effects that all belong to one stage are in stage order. */
  lemma OneStageInOrder(s: seq<Effect>, k: nat)
    requires forall i :: 0 <= i < |s| ==> Phase(s[i]) == k
    ensures InStageOrder(s)
  {
  }

  /** Two lists in stage order, the first at or before stage `k` and the second at or after
      it, make one list in stage order. */
  lemma AppendInStageOrder(a: seq<Effect>, b: seq<Effect>, k: nat)
    requires InStageOrder(a) && InStageOrder(b)
    requires forall i :: 0 <= i < |a| ==> Phase(a[i]) <= k
    requires forall j :: 0 <= j < |b| ==> k <= Phase(b[j])
    ensures InStageOrder(a + b)
  {
    var s := a + b;
    forall i, j | 0 <= i < j < |s|
      ensures Phase(s[i]) <= Phase(s[j])
    {
      if j < |a| {
        assert s[i] == a[i] && s[j] == a[j];
      } else if i < |a| {
        assert s[i] == a[i] && s[j] == b[j - |a|];
      } else {
        assert s[i] == b[i - |a|] && s[j] == b[j - |a|];
      }
    }
  }

  /** Everything the step depends on but whose code is not modelled. `md5Hex` and `sha1Hex`
      are the lower-case hex digests (RFC 1321, FIPS 180-4), `lineSeparator` is what
      `PrintWriter.println` appends, `encode` is the platform charset, `storeFormat` is the
      text `Properties.store` produces, and a write to a path in `unwritable` fails. */
  datatype Environment = Environment(
    md5Hex: Bytes -> string,
    sha1Hex: Bytes -> string,
    lineSeparator: string,
    encode: string -> Bytes,
    storeFormat: (map<string, string>, string) -> Bytes,
    unwritable: set<Path>)

  /** Effect `e` does not create or overwrite the regular file `p`. */
  predicate Spares(e: Effect, p: Path) {
    e.MakeDirectory? || e.Target() != p
  }

  /** The bytes a write leaves in its target: the copied data, the encoded text, or the
      stored form of the properties. */
  function Content(env: Environment, e: Effect): Bytes
    requires !e.MakeDirectory?
  {
    match e
    case StoreProperties(_, m, c) => env.storeFormat(m, c)
    case CopyFile(_, _, data) => data
    case WriteText(_, text) => env.encode(text)
  }

  /** `effects[i]` writes a file and no later effect overwrites it. */
  predicate LastWriteAt(effects: seq<Effect>, i: int)
    requires 0 <= i < |effects|
  {
    !effects[i].MakeDirectory? && forall j :: i < j < |effects| ==> Spares(effects[j], effects[i].Target())
  }

  function ApplyOne(env: Environment, fs: FileSystem, e: Effect): FileSystem {
    if e.MakeDirectory? then fs.(dirs := fs.dirs + {e.dir})
    else fs.(files := fs.files[e.Target() := Content(env, e)])
  }

  /** The file system after performing `effects` in order. Nothing is ever deleted: every
      file an effect wrote is still present and holds what the last write to it left there,
      and a file no effect touches keeps its bytes. */
  function Apply(env: Environment, fs: FileSystem, effects: seq<Effect>): (r: FileSystem)
    ensures fs.files.Keys <= r.files.Keys && fs.dirs <= r.dirs
    ensures forall i :: 0 <= i < |effects| && effects[i].MakeDirectory? ==> effects[i].dir in r.dirs
    ensures forall i :: 0 <= i < |effects| && !effects[i].MakeDirectory? ==> effects[i].Target() in r.files
    ensures forall p :: p in fs.files && (forall i :: 0 <= i < |effects| ==> Spares(effects[i], p))
                        ==> r.files[p] == fs.files[p]
    decreases |effects|
  {
    if |effects| == 0 then fs
    else ApplyOne(env, Apply(env, fs, effects[..|effects| - 1]), effects[|effects| - 1])
  }

  /** Nothing appears from nowhere: every file afterwards was there before or is the target
      of a write, and every directory afterwards was there before or was created. */
  lemma {:induction false} ApplyCreatesOnlyTargets(env: Environment, fs: FileSystem, effects: seq<Effect>)
    ensures forall p :: p in Apply(env, fs, effects).files ==>
      p in fs.files || exists i :: 0 <= i < |effects| && !effects[i].MakeDirectory? && effects[i].Target() == p
    ensures forall d :: d in Apply(env, fs, effects).dirs ==>
      d in fs.dirs || exists i :: 0 <= i < |effects| && effects[i].MakeDirectory? && effects[i].dir == d
    decreases |effects|
  {
    if |effects| > 0 {
      var n := |effects| - 1;
      ApplyCreatesOnlyTargets(env, fs, effects[..n]);
      assert Apply(env, fs, effects) == ApplyOne(env, Apply(env, fs, effects[..n]), effects[n]);
      assert forall i :: 0 <= i < n ==> effects[..n][i] == effects[i];
    }
  }

  /** Writes confined to files under `prefix` and to creating `dir` leave every other file
      as it was, add no file outside `prefix`, and add no directory but `dir`. */
  lemma ApplyWithin(env: Environment, fs: FileSystem, effects: seq<Effect>, dir: Path, prefix: Path)
    requires forall e :: e in effects && e.MakeDirectory? ==> e.dir == dir
    requires forall e :: e in effects && !e.MakeDirectory? ==> prefix <= e.Target()
    ensures forall p :: p in fs.files && !(prefix <= p) ==> Apply(env, fs, effects).files[p] == fs.files[p]
    ensures forall p :: p in Apply(env, fs, effects).files ==> p in fs.files || prefix <= p
    ensures forall d :: d in Apply(env, fs, effects).dirs ==> d in fs.dirs || d == dir
  {
    forall i | 0 <= i < |effects|
      ensures effects[i] in effects
    {
    }
    ApplyCreatesOnlyTargets(env, fs, effects);
  }

  /** Each written file holds what the last write to it left there. */
  lemma {:induction false} ApplyLeavesLastWrites(env: Environment, fs: FileSystem, effects: seq<Effect>)
    ensures forall i :: 0 <= i < |effects| && LastWriteAt(effects, i) ==>
      Apply(env, fs, effects).files[effects[i].Target()] == Content(env, effects[i])
    decreases |effects|
  {
    if |effects| > 0 {
      var n := |effects| - 1;
      var prefix := effects[..n];
      ApplyLeavesLastWrites(env, fs, prefix);
      var before := Apply(env, fs, prefix);
      assert Apply(env, fs, effects) == ApplyOne(env, before, effects[n]);
      forall i | 0 <= i < |effects| && LastWriteAt(effects, i)
        ensures Apply(env, fs, effects).files[effects[i].Target()] == Content(env, effects[i])
      {
        if i < n {
          assert prefix[i] == effects[i];
          assert LastWriteAt(prefix, i) by {
            forall j | i < j < n
              ensures Spares(prefix[j], prefix[i].Target())
            {
              assert prefix[j] == effects[j];
            }
          }
          assert Spares(effects[n], effects[i].Target());
        }
      }
    }
  }

  /** When some effect from index `k` on writes `p`, and every such write leaves `data`, the
      file `p` ends up holding `data`. */
  lemma {:induction false} LaterWritesAgree(env: Environment, fs: FileSystem, effects: seq<Effect>, k: nat, p: Path, data: Bytes)
    requires exists i :: k <= i < |effects| && !effects[i].MakeDirectory? && effects[i].Target() == p
    requires forall i :: k <= i < |effects| && !effects[i].MakeDirectory? && effects[i].Target() == p
                         ==> Content(env, effects[i]) == data
    ensures p in Apply(env, fs, effects).files && Apply(env, fs, effects).files[p] == data
    decreases |effects|
  {
    var n := |effects| - 1;
    var e := effects[n];
    assert Apply(env, fs, effects) == ApplyOne(env, Apply(env, fs, effects[..n]), e);
    if e.MakeDirectory? || e.Target() != p {
      var prefix := effects[..n];
      var i :| k <= i < |effects| && !effects[i].MakeDirectory? && effects[i].Target() == p;
      assert i < n && prefix[i] == effects[i];
      assert forall i :: k <= i < n ==> prefix[i] == effects[i];
      LaterWritesAgree(env, fs, prefix, k, p, data);
    }
  }
}

=== FILE: rerun.dfy ===
/** Running the step again. The step reads only the artifacts' own files and whether the
    working directory exists, so a second run over a file system in which those are
    unchanged repeats the first run's decisions and writes. */
module Rerun {
  import opened Sequences
  import opened Artifacts
  import opened Files
  import opened Detachment
  import opened DetachmentProperties

  /** `fs` and `fs'` agree on whether each artifact's file can be read and on its bytes. */
  predicate SameArtifactFiles(fs: FileSystem, fs': FileSystem, xs: seq<Artifact>) {
    forall a :: a in xs ==>
      (Readable(fs, a) <==> Readable(fs', a)) && (Readable(fs, a) ==> fs.files[a.file] == fs'.files[a.file])
  }

  /** Classification depends on the artifacts' files and on nothing else in the file system. */
  lemma {:induction false} ClassifyReadsOnlyArtifactFiles(env: Environment, fs: FileSystem, fs': FileSystem, attached: seq<Artifact>)
    requires SameArtifactFiles(fs, fs', attached)
    ensures Classify(env, fs, attached) == Classify(env, fs', attached)
    decreases |attached|
  {
    if |attached| > 0 {
      var n := |attached| - 1;
      assert forall a :: a in attached[..n] ==> a in attached;
      ClassifyReadsOnlyArtifactFiles(env, fs, fs', attached[..n]);
      assert attached[n] in attached;
    }
  }

  /** So does the copy stage. */
  lemma {:induction false} CopyStageReadsOnlyArtifactFiles(env: Environment, fs: FileSystem, fs': FileSystem, dir: Path, ds: seq<Artifact>)
    requires SameArtifactFiles(fs, fs', ds)
    ensures CopyStage(env, fs, dir, ds) == CopyStage(env, fs', dir, ds)
    decreases |ds|
  {
    if |ds| > 0 {
      assert ds[0] in ds;
      assert forall a :: a in ds[1..] ==> a in ds;
      CopyStageReadsOnlyArtifactFiles(env, fs, fs', dir, ds[1..]);
    }
  }

  /** And so does writing the sidecars. */
  lemma {:induction false} SignEachReadsOnlyArtifactFiles(env: Environment, fs: FileSystem, fs': FileSystem, dir: Path, ss: seq<Artifact>)
    requires SameArtifactFiles(fs, fs', ss)
    ensures SignEach(env, fs, dir, ss) == SignEach(env, fs', dir, ss)
    decreases |ss|
  {
    if |ss| > 0 {
      assert ss[0] in ss;
      assert forall a :: a in ss[1..] ==> a in ss;
      SignEachReadsOnlyArtifactFiles(env, fs, fs', dir, ss[1..]);
    }
  }

  /** The signing stage signs a selection of the detached artifacts, so it too depends on
      their files only. */
  lemma SignStageReadsOnlyArtifactFiles(env: Environment, fs: FileSystem, fs': FileSystem, dir: Path, ds: seq<Artifact>)
    requires SameArtifactFiles(fs, fs', ds)
    ensures SignStage(env, fs, dir, ds) == SignStage(env, fs', dir, ds)
  {
    var ss := Filter(NeedsSidecars, ds);
    assert forall a :: a in ss ==> a in ds;
    SignEachReadsOnlyArtifactFiles(env, fs, fs', dir, ss);
  }

  /** Staging finishes exactly when every write is permitted, and then writes the directory
      (if missing), the digest map, the copies and the sidecars. */
  lemma StageFinishes(env: Environment, fs: FileSystem, dir: Path, c: Classification)
    ensures Stage(env, fs, dir, c).Finished? <==>
      && !(!Exists(fs, dir) && dir in env.unwritable)
      && PropertiesPath(dir) !in env.unwritable
      && CopyStage(env, fs, dir, c.detached).Finished?
      && SignStage(env, fs, dir, c.detached).Finished?
    ensures Stage(env, fs, dir, c).Finished? ==>
      Stage(env, fs, dir, c).effects
      == MadeDirectory(fs, dir) + ([StoreProperties(PropertiesPath(dir), c.sha1s, PropertiesComment)]
         + CopyStage(env, fs, dir, c.detached).effects + SignStage(env, fs, dir, c.detached).effects)
  {
    var made := MadeDirectory(fs, dir);
    var stored := [StoreProperties(PropertiesPath(dir), c.sha1s, PropertiesComment)];
    var copies := CopyStage(env, fs, dir, c.detached).effects;
    var sidecars := SignStage(env, fs, dir, c.detached).effects;
    AppendAssociative(made, stored, copies);
    AppendAssociative(made, stored + copies, sidecars);
  }

  /** When the working directory exists, staging does not create it. */
  lemma StageInExistingDirectory(env: Environment, fs: FileSystem, dir: Path, c: Classification)
    requires Exists(fs, dir) && PropertiesPath(dir) !in env.unwritable
    requires CopyStage(env, fs, dir, c.detached).Finished? && SignStage(env, fs, dir, c.detached).Finished?
    ensures Stage(env, fs, dir, c) == Finished([StoreProperties(PropertiesPath(dir), c.sha1s, PropertiesComment)]
      + CopyStage(env, fs, dir, c.detached).effects + SignStage(env, fs, dir, c.detached).effects)
  {
    var stored := [StoreProperties(PropertiesPath(dir), c.sha1s, PropertiesComment)];
    assert MadeDirectory(fs, dir) == [];
    assert [] + stored == stored;
  }

  /** Staging into a directory that now exists performs the same writes as a staging that
      finished, except for creating the directory. */
  lemma StageAgain(env: Environment, fs: FileSystem, fs': FileSystem, dir: Path, c: Classification)
    requires SameArtifactFiles(fs, fs', c.detached) && Exists(fs', dir)
    requires Stage(env, fs, dir, c).Finished?
    ensures Stage(env, fs', dir, c).Finished?
    ensures Stage(env, fs, dir, c).effects == MadeDirectory(fs, dir) + Stage(env, fs', dir, c).effects
  {
    CopyStageReadsOnlyArtifactFiles(env, fs, fs', dir, c.detached);
    SignStageReadsOnlyArtifactFiles(env, fs, fs', dir, c.detached);
    StageFinishes(env, fs, dir, c);
    StageInExistingDirectory(env, fs', dir, c);
  }

  /** A completed run leaves its working directory in place and the artifacts' files, when
      they lie outside it, as they were. */
  lemma CompletedRunKeepsInputs(env: Environment, config: Config, attached: seq<Artifact>, fs: FileSystem)
    requires Run(env, config, attached, fs).exit == Completed
    requires forall i :: 0 <= i < |attached| ==> !(config.workingDirectory + "/" <= attached[i].file)
    ensures var fs' := Apply(env, fs, Run(env, config, attached, fs).effects);
      SameArtifactFiles(fs, fs', attached) && Exists(fs', config.workingDirectory)
  {
    var r := Run(env, config, attached, fs);
    var dir := config.workingDirectory;
    var fs' := Apply(env, fs, r.effects);
    WritesOnlyInsideWorkingDirectory(env, config, attached, fs);
    assert Classify(env, fs, attached).Classified?;
    forall a | a in attached
      ensures Readable(fs, a) && Readable(fs', a) && fs.files[a.file] == fs'.files[a.file]
    {
      var i :| 0 <= i < |attached| && attached[i] == a;
    }
    if !Exists(fs, dir) {
      var c := Classify(env, fs, attached).value;
      StageFinishes(env, fs, dir, c);
      assert r.effects == Stage(env, fs, dir, c).effects;
      assert r.effects[0] == MakeDirectory(dir);
    }
  }

  /** After a completed run, running the step again for the same project and configuration
      over the resulting file system also completes, detaches and records the same, and
      performs the same writes again, storing the same digest entries (only the working
      directory is not created twice), provided the artifacts' files lie outside the working
      directory. This is a fresh build: the project again has its archives attached. */
  lemma RerunRepeatsWrites(env: Environment, config: Config, attached: seq<Artifact>, fs: FileSystem)
    requires Run(env, config, attached, fs).exit == Completed
    requires forall i :: 0 <= i < |attached| ==> !(config.workingDirectory + "/" <= attached[i].file)
    ensures var r := Run(env, config, attached, fs);
      var r' := Run(env, config, attached, Apply(env, fs, r.effects));
      && r'.exit == Completed
      && r'.attached == r.attached && r'.detached == r.detached && r'.sha1s == r.sha1s
      && r.effects == MadeDirectory(fs, config.workingDirectory) + r'.effects
  {
    var fs' := Apply(env, fs, Run(env, config, attached, fs).effects);
    CompletedRunKeepsInputs(env, config, attached, fs);
    ClassifyReadsOnlyArtifactFiles(env, fs, fs', attached);
    var c := Classify(env, fs, attached).value;
    ClassifyDetachesFilter(env, fs, attached);
    StageAgain(env, fs, fs', config.workingDirectory, c);
  }
}

=== FILE: run_exits.dfy ===
/** Which exit a run takes, stated in terms of its inputs alone. */
module RunExits {
  import opened Sequences
  import opened Artifacts
  import opened Files
  import opened Detachment
  import opened StagingPlan
  import opened Rerun

  /** Every attached artifact's file can be read. */
  predicate AllReadable(fs: FileSystem, attached: seq<Artifact>) {
    forall i :: 0 <= i < |attached| ==> Readable(fs, attached[i])
  }

  /** `execute` takes each of its exits exactly when its condition holds: the two gates in
      order, then an unreadable file, then nothing to detach, and otherwise completion when
      the directory, `sha1.properties`, every copy and every sidecar can be written, and the
      first failing stage otherwise. */
  lemma RunExits(env: Environment, config: Config, attached: seq<Artifact>, fs: FileSystem)
    ensures var r := Run(env, config, attached, fs);
      var dir := config.workingDirectory;
      var d := Filter(IsDetachable, attached);
      && (r.exit == NotDistModule <==> !config.isDistModule)
      && (r.exit == NoStagingUrl <==> config.isDistModule && config.distSvnStagingUrl == "")
      && (r.exit.Failed? && r.exit.failure.UnreadableArtifact? <==> Proceeds(config) && !AllReadable(fs, attached))
      && (r.exit == NoDistributions <==> Proceeds(config) && AllReadable(fs, attached) && d == [])
      && (r.exit == Completed <==>
            && Proceeds(config) && AllReadable(fs, attached) && d != []
            && (Exists(fs, dir) || dir !in env.unwritable)
            && PropertiesPath(dir) !in env.unwritable
            && CopyStage(env, fs, dir, d).Finished?
            && SignStage(env, fs, dir, d).Finished?)
  {
    var r := Run(env, config, attached, fs);
    if Proceeds(config) && AllReadable(fs, attached) {
      ClassifyDetachesFilter(env, fs, attached);
      var c := Classify(env, fs, attached).value;
      StageFinishes(env, fs, config.workingDirectory, c);
      StageFailures(env, fs, config.workingDirectory, c);
    } else if Proceeds(config) {
      ClassifyFailsAtFirstUnreadable(env, fs, attached);
    }
  }
}

=== FILE: run_properties.dfy ===
/** What a whole run of the detachment step guarantees, exit path by exit path. */
module DetachmentProperties {
  import opened Sequences
  import opened Artifacts
  import opened Files
  import opened Detachment
  import opened StagingPlan

  /** A module that is not a distribution module is left alone: nothing is read, hashed,
      removed or written, whatever the staging URL, the file system or the digests. */
  lemma NotDistModuleDoesNothing(env: Environment, config: Config, attached: seq<Artifact>, fs: FileSystem,
                                 env': Environment, url: string, fs': FileSystem)
    requires !config.isDistModule
    ensures var r := Run(env, config, attached, fs);
      r.exit == NotDistModule && r.attached == attached && r.effects == []
      && Run(env', config.(distSvnStagingUrl := url), attached, fs') == r
  {
  }

  /** Without a staging URL the step stops before classification: nothing is read (so a
      missing file causes no failure), removed or written. */
  lemma NoStagingUrlDoesNothing(env: Environment, config: Config, attached: seq<Artifact>, fs: FileSystem,
                                env': Environment, fs': FileSystem)
    requires config.isDistModule && config.distSvnStagingUrl == ""
    ensures var r := Run(env, config, attached, fs);
      r.exit == NoStagingUrl && r.attached == attached && r.effects == []
      && Run(env', config, attached, fs') == r
  {
  }

  /** An unreadable attached artifact fails the run before any removal or write, and the
      failure names the first such artifact. */
  lemma UnreadableArtifactAborts(env: Environment, config: Config, attached: seq<Artifact>, fs: FileSystem, i: int)
    requires Proceeds(config)
    requires 0 <= i < |attached| && !Readable(fs, attached[i])
    requires forall j :: 0 <= j < i ==> Readable(fs, attached[j])
    ensures var r := Run(env, config, attached, fs);
      r.exit == Failed(UnreadableArtifact(attached[i].artifactId, attached[i].version, attached[i].artifactType))
      && r.attached == attached && r.effects == []
  {
    ClassifyFailsAtFirstUnreadable(env, fs, attached);
  }

  /** With every file readable, the run detaches exactly the artifacts whose type is one of
      the four distribution types, each as often as it is attached and in attached order. */
  lemma DetachesAllowListInOrder(env: Environment, config: Config, attached: seq<Artifact>, fs: FileSystem)
    requires Proceeds(config)
    requires forall i :: 0 <= i < |attached| ==> Readable(fs, attached[i])
    ensures var r := Run(env, config, attached, fs);
      && r.detached == Filter(IsDetachable, attached)
      && IsSubsequence(r.detached, attached)
      && (forall a :: a in r.detached <==> a in attached && IsDetachable(a))
      && (forall a :: multiset(r.detached)[a] == if IsDetachable(a) then multiset(attached)[a] else 0)
  {
    ClassifyDetachesFilter(env, fs, attached);
    FilterIsOrderedSelection(IsDetachable, attached);
  }

  /** With every file readable, the run records a SHA-1 of the file of every attached
      artifact, detached or not, under its `groupId-artifactId-version-type` key and has no
      other entries; when keys repeat, the last artifact's digest is kept. */
  lemma RecordsSha1OfEveryArtifact(env: Environment, config: Config, attached: seq<Artifact>, fs: FileSystem)
    requires Proceeds(config)
    requires forall i :: 0 <= i < |attached| ==> Readable(fs, attached[i])
    ensures var r := Run(env, config, attached, fs);
      && r.sha1s.Keys == (set a | a in attached :: Sha1Key(a))
      && (forall i :: 0 <= i < |attached| && LastWithKey(attached, i) ==>
            r.sha1s[Sha1Key(attached[i])] == env.sha1Hex(fs.files[attached[i].file]))
  {
    ClassifyRecordsKeys(env, fs, attached);
    ClassifyRecordsSha1s(env, fs, attached);
  }

  /** When nothing is of a distribution type the run ends successfully right after
      classification, leaving the attached list as it was and writing nothing; it ends that
      way only then. */
  lemma NoDistributionsDoesNothing(env: Environment, config: Config, attached: seq<Artifact>, fs: FileSystem)
    requires Proceeds(config)
    requires forall i :: 0 <= i < |attached| ==> Readable(fs, attached[i])
    ensures var r := Run(env, config, attached, fs);
      (r.exit == NoDistributions <==> forall i :: 0 <= i < |attached| ==> !IsDetachable(attached[i]))
      && (r.exit == NoDistributions ==> r.attached == attached && r.effects == [])
  {
    ClassifyDetachesFilter(env, fs, attached);
    var d := Filter(IsDetachable, attached);
    if |d| > 0 {
      assert d[0] in d;
    } else {
      assert forall i :: 0 <= i < |attached| ==> attached[i] !in d;
    }
  }

  /** Once something is detached, removal has split the original list: what stays attached
      is exactly the non-distribution artifacts in their original order, and together with
      the detached ones it is the original list, counted with multiplicity. This holds
      however the later stages end. */
  lemma RemovalPartitionsAttached(env: Environment, config: Config, attached: seq<Artifact>, fs: FileSystem)
    requires Proceeds(config)
    requires forall i :: 0 <= i < |attached| ==> Readable(fs, attached[i])
    requires exists i :: 0 <= i < |attached| && IsDetachable(attached[i])
    ensures var r := Run(env, config, attached, fs);
      && r.attached == Filter(IsKept, attached)
      && multiset(r.attached) + multiset(r.detached) == multiset(attached)
      && (forall a :: a in r.attached <==> a in attached && !IsDetachable(a))
      && (forall a :: a in r.detached ==> a !in r.attached)
  {
    ClassifyDetachesFilter(env, fs, attached);
    var i :| 0 <= i < |attached| && IsDetachable(attached[i]);
    assert attached[i] in Filter(IsDetachable, attached);
    RemovingFilteredPartitions(IsDetachable, IsKept, attached);
  }

  /** After classification every detached artifact is readable. */
  lemma DetachedAreReadable(env: Environment, config: Config, attached: seq<Artifact>, fs: FileSystem)
    requires Proceeds(config)
    requires Classify(env, fs, attached).Classified?
    ensures forall a :: a in Run(env, config, attached, fs).detached ==> Readable(fs, a)
  {
    ClassifyDetachesFilter(env, fs, attached);
    forall a | a in Run(env, config, attached, fs).detached
      ensures Readable(fs, a)
    {
      assert a in attached;
      var i :| 0 <= i < |attached| && attached[i] == a;
    }
  }

  /** Once something is detached, the run has performed a prefix of the staging plan
      (working directory, `sha1.properties`, copies, sidecars) and undone none of it; it
      completes exactly when it has performed the whole plan. */
  lemma RunWritesPrefixOfPlan(env: Environment, config: Config, attached: seq<Artifact>, fs: FileSystem)
    requires Proceeds(config)
    requires forall i :: 0 <= i < |attached| ==> Readable(fs, attached[i])
    requires exists i :: 0 <= i < |attached| && IsDetachable(attached[i])
    ensures var r := Run(env, config, attached, fs);
      && (forall a :: a in r.detached ==> Readable(fs, a))
      && var plan := Plan(env, fs, config.workingDirectory, Classification(r.detached, r.sha1s));
         r.effects <= plan && (r.exit == Completed <==> r.effects == plan)
  {
    var r := Run(env, config, attached, fs);
    DetachedAreReadable(env, config, attached, fs);
    ClassifyDetachesFilter(env, fs, attached);
    var i :| 0 <= i < |attached| && IsDetachable(attached[i]);
    assert attached[i] in r.detached;
    StageFollowsPlan(env, fs, config.workingDirectory, Classification(r.detached, r.sha1s));
  }

  /** What each failure after removal leaves written: nothing when the working directory
      cannot be created; only the directory when `sha1.properties` cannot be written; the
      directory, the digest map and the copies before the failed one when a copy fails; all
      of those and every copy, plus the sidecars of the artifacts before the one that could
      not be signed (and its `.md5` if only its `.sha1` failed) when signing fails. */
  lemma FailuresAfterRemoval(env: Environment, config: Config, attached: seq<Artifact>, fs: FileSystem)
    requires Proceeds(config)
    requires forall i :: 0 <= i < |attached| ==> Readable(fs, attached[i])
    requires exists i :: 0 <= i < |attached| && IsDetachable(attached[i])
    ensures var r := Run(env, config, attached, fs);
      var dir := config.workingDirectory;
      var n := |MadeDirectory(fs, dir)|;
      && (r.exit.Failed? && r.exit.failure.DirectoryNotCreated? ==>
            r.exit.failure.dir == dir && !Exists(fs, dir) && r.effects == [])
      && (r.exit.Failed? && r.exit.failure.PropertiesNotWritten? ==>
            r.exit.failure.file == PropertiesPath(dir) && r.effects == MadeDirectory(fs, dir))
      && (r.exit.Failed? && r.exit.failure.CopyFailed? ==>
            exists k :: 0 <= k < |r.detached| && |r.effects| == n + 1 + k
              && !CanCopy(env, fs, dir, r.detached[k])
              && r.exit.failure == CopyFailed(r.detached[k].file, StagedPath(dir, r.detached[k])))
      && (r.exit.Failed? && r.exit.failure.SignFailed? ==>
            var signed := Filter(NeedsSidecars, r.detached);
            var m := FirstUnsignable(env, fs, dir, signed);
            m < |signed| && r.exit.failure == SignFailed(FileName(signed[m]))
            && |r.effects| == n + 1 + |r.detached| + 2 * m + (if CanWriteMd5(env, fs, dir, signed[m]) then 1 else 0))
  {
    var r := Run(env, config, attached, fs);
    ClassifyDetachesFilter(env, fs, attached);
    var i :| 0 <= i < |attached| && IsDetachable(attached[i]);
    assert attached[i] in r.detached;
    var c := Classify(env, fs, attached).value;
    var p := Stage(env, fs, config.workingDirectory, c);
    assert r.detached == c.detached && r.effects == p.effects;
    assert r.exit.Failed? ==> p.Aborted? && r.exit.failure == p.failure;
    StageFailures(env, fs, config.workingDirectory, c);
  }

  /** Writes come stage by stage in every run: the working directory, then
      `sha1.properties`, then the copies, then the sidecars. */
  lemma EffectsInStageOrder(env: Environment, config: Config, attached: seq<Artifact>, fs: FileSystem)
    ensures InStageOrder(Run(env, config, attached, fs).effects)
  {
    var r := Run(env, config, attached, fs);
    if Proceeds(config) && Classify(env, fs, attached).Classified? && |r.detached| > 0 {
      DetachedAreReadable(env, config, attached, fs);
      var c := Classification(r.detached, r.sha1s);
      StageFollowsPlan(env, fs, config.workingDirectory, c);
      PlanIsInStageOrder(env, fs, config.workingDirectory, c);
      var plan := Plan(env, fs, config.workingDirectory, c);
      assert forall i :: 0 <= i < |r.effects| ==> r.effects[i] == plan[i];
    }
  }

  /** Every text file a run writes is a sidecar of a detached artifact whose file name does
      not contain "asc": its `.md5` or `.sha1`, holding the digest of that artifact's own file
      followed by the line separator. */
  lemma SidecarsOnlyForUnsignedFiles(env: Environment, config: Config, attached: seq<Artifact>, fs: FileSystem)
    ensures var r := Run(env, config, attached, fs);
      forall e :: e in r.effects && e.WriteText? ==>
        exists a :: a in r.detached && NeedsSidecars(a) && Readable(fs, a)
          && (e == Md5Sidecar(env, fs, config.workingDirectory, a) || e == Sha1Sidecar(env, fs, config.workingDirectory, a))
  {
    var r := Run(env, config, attached, fs);
    if Proceeds(config) && Classify(env, fs, attached).Classified? && |r.detached| > 0 {
      DetachedAreReadable(env, config, attached, fs);
      var dir := config.workingDirectory;
      var c := Classification(r.detached, r.sha1s);
      StageFollowsPlan(env, fs, dir, c);
      forall e | e in r.effects && e.WriteText?
        ensures exists a :: (a in r.detached && NeedsSidecars(a) && Readable(fs, a)
                             && (e == Md5Sidecar(env, fs, dir, a) || e == Sha1Sidecar(env, fs, dir, a)))
      {
        PlannedTextIsSidecar(env, fs, dir, c, e);
      }
    }
  }

  /** A completed run has written the digest map, a copy of every detached artifact, and both
      sidecars of every detached artifact whose file name does not contain "asc". */
  lemma CompletedRunWritesEverything(env: Environment, config: Config, attached: seq<Artifact>, fs: FileSystem)
    requires Run(env, config, attached, fs).exit == Completed
    ensures var r := Run(env, config, attached, fs);
      var dir := config.workingDirectory;
      && StoreProperties(PropertiesPath(dir), r.sha1s, PropertiesComment) in r.effects
      && (forall a :: a in r.detached ==> Readable(fs, a) && CopyOf(fs, dir, a) in r.effects)
      && (forall a :: a in r.detached && NeedsSidecars(a) ==>
            Md5Sidecar(env, fs, dir, a) in r.effects && Sha1Sidecar(env, fs, dir, a) in r.effects)
  {
    var r := Run(env, config, attached, fs);
    DetachedAreReadable(env, config, attached, fs);
    var c := Classification(r.detached, r.sha1s);
    StageFollowsPlan(env, fs, config.workingDirectory, c);
    PlanWritesEverything(env, fs, config.workingDirectory, c);
  }

  /** A run writes only inside its working directory: it creates no directory but that one,
      every file outside it, the artifacts' own files included, keeps its bytes, and no new
      file appears outside it. */
  lemma WritesOnlyInsideWorkingDirectory(env: Environment, config: Config, attached: seq<Artifact>, fs: FileSystem)
    ensures var r := Run(env, config, attached, fs);
      var dir := config.workingDirectory;
      && (forall e :: e in r.effects && e.MakeDirectory? ==> e.dir == dir)
      && (forall e :: e in r.effects && !e.MakeDirectory? ==> dir + "/" <= e.Target())
      && (forall p :: p in fs.files && !(dir + "/" <= p) ==> Apply(env, fs, r.effects).files[p] == fs.files[p])
      && (forall p :: p in Apply(env, fs, r.effects).files ==> p in fs.files || dir + "/" <= p)
      && (forall d :: d in Apply(env, fs, r.effects).dirs ==> d in fs.dirs || d == dir)
  {
    var r := Run(env, config, attached, fs);
    var dir := config.workingDirectory;
    if Proceeds(config) && Classify(env, fs, attached).Classified? && |r.detached| > 0 {
      DetachedAreReadable(env, config, attached, fs);
      var c := Classification(r.detached, r.sha1s);
      StageFollowsPlan(env, fs, dir, c);
      forall e | e in r.effects
        ensures e.MakeDirectory? ==> e.dir == dir
        ensures !e.MakeDirectory? ==> dir + "/" <= e.Target()
      {
        PlannedWritesInDirectory(env, fs, dir, c, e);
      }
    }
    ApplyWithin(env, fs, r.effects, dir, dir + "/");
  }
}

=== FILE: scenario.dfy ===
/** One complete run on a module that attaches a jar, a zip and the zip's signature, all
    three in one local repository directory. */
module DetachmentScenario {
  import opened Sequences
  import opened Artifacts
  import opened Files
  import opened Detachment

  function Jar(repo: Path): Artifact {
    Artifact("org", "app", "1.0", "jar", InDirectory(repo, "app.jar"))
  }

  function Zip(repo: Path): Artifact {
    Artifact("org", "app", "1.0", "zip", InDirectory(repo, "app.zip"))
  }

  function ZipSignature(repo: Path): Artifact {
    Artifact("org", "app", "1.0", "zip.asc", InDirectory(repo, "app.zip.asc"))
  }

  /** The three artifacts' files hold one byte each. */
  function Repository(repo: Path, work: Path): FileSystem {
    FileSystem(map[Jar(repo).file := [1], Zip(repo).file := [2], ZipSignature(repo).file := [3]], {work})
  }

  /** The staged names, and which of them get sidecars. */
  lemma ScenarioNames(repo: Path)
    ensures FileName(Zip(repo)) == "app.zip" && FileName(ZipSignature(repo)) == "app.zip.asc"
    ensures NeedsSidecars(Zip(repo)) && !NeedsSidecars(ZipSignature(repo))
  {
    BaseNameOfChild(repo, "app.zip");
    BaseNameOfChild(repo, "app.zip.asc");
    assert 's' !in "app.zip";
    NotContainedWithoutCharacter("app.zip", "asc", 1);
    assert "app.zip.asc"[8..11] == "asc";
    OccurrenceIsContained("app.zip.asc", "asc", 8);
  }

  /** The bytes each of the three files holds. */
  lemma ScenarioContents(repo: Path, work: Path)
    ensures var files := Repository(repo, work).files;
      && files[Jar(repo).file] == [1] && files[Zip(repo).file] == [2] && files[ZipSignature(repo).file] == [3]
  {
    AppendCancel("app.jar", "app.zip", repo + "/", "");
    AppendCancel("app.jar", "app.zip.asc", repo + "/", "");
    AppendCancel("app.zip", "app.zip.asc", repo + "/", "");
  }

  /** The keys of the three artifacts in `sha1.properties`. */
  lemma ScenarioKeys(repo: Path)
    ensures Sha1Key(Jar(repo)) == "org-app-1.0-jar"
    ensures Sha1Key(Zip(repo)) == "org-app-1.0-zip"
    ensures Sha1Key(ZipSignature(repo)) == "org-app-1.0-zip.asc"
  {
    var prefix := "org" + "-" + "app" + "-" + "1.0" + "-";
    assert prefix == "org-app-1.0-";
    assert Sha1Key(Jar(repo)) == prefix + "jar";
    assert Sha1Key(Zip(repo)) == prefix + "zip";
    assert Sha1Key(ZipSignature(repo)) == prefix + "zip.asc";
  }

  /** Classification detaches the zip and its signature and records all three SHA-1s. */
  lemma ScenarioClassification(env: Environment, repo: Path, work: Path)
    ensures Classify(env, Repository(repo, work), [Jar(repo), Zip(repo), ZipSignature(repo)])
      == Classified(Classification([Zip(repo), ZipSignature(repo)],
           map["org-app-1.0-jar" := env.sha1Hex([1]), "org-app-1.0-zip" := env.sha1Hex([2]),
               "org-app-1.0-zip.asc" := env.sha1Hex([3])]))
  {
    ScenarioContents(repo, work);
    ScenarioKeys(repo);
    var fs := Repository(repo, work);
    var attached := [Jar(repo), Zip(repo), ZipSignature(repo)];
    assert attached[..2] == [Jar(repo), Zip(repo)] && attached[..2][..1] == [Jar(repo)];
    assert [Jar(repo)][..0] == [];
    assert !IsDetachable(Jar(repo)) && IsDetachable(Zip(repo)) && IsDetachable(ZipSignature(repo));
    assert Classify(env, fs, [Jar(repo)]) == Classified(Classification([], map["org-app-1.0-jar" := env.sha1Hex([1])]));
    assert Classify(env, fs, [Jar(repo), Zip(repo)]) == Classified(Classification([Zip(repo)],
      map["org-app-1.0-jar" := env.sha1Hex([1]), "org-app-1.0-zip" := env.sha1Hex([2])]));
  }

  /** Both detached files are copied. */
  lemma ScenarioCopies(env: Environment, repo: Path, work: Path)
    requires env.unwritable == {}
    ensures var fs := Repository(repo, work);
      CopyStage(env, fs, work, [Zip(repo), ZipSignature(repo)])
      == Finished([CopyOf(fs, work, Zip(repo)), CopyOf(fs, work, ZipSignature(repo))])
  {
    ScenarioContents(repo, work);
    var ds := [Zip(repo), ZipSignature(repo)];
    assert ds[1..] == [ZipSignature(repo)] && ds[1..][1..] == [];
  }

  /** Only the zip is to be signed. */
  lemma ScenarioSignedList(repo: Path)
    ensures Filter(NeedsSidecars, [Zip(repo), ZipSignature(repo)]) == [Zip(repo)]
  {
    ScenarioNames(repo);
    var ds := [Zip(repo), ZipSignature(repo)];
    assert ds[1..] == [ZipSignature(repo)] && ds[1..][1..] == [];
    assert Filter(NeedsSidecars, ds[1..]) == [];
  }

  /** Only the zip is signed. */
  lemma ScenarioSigning(env: Environment, repo: Path, work: Path)
    requires env.unwritable == {}
    ensures var fs := Repository(repo, work);
      SignStage(env, fs, work, [Zip(repo), ZipSignature(repo)])
      == Finished([Md5Sidecar(env, fs, work, Zip(repo)), Sha1Sidecar(env, fs, work, Zip(repo))])
  {
    ScenarioSignedList(repo);
    ScenarioContents(repo, work);
    var fs := Repository(repo, work);
    assert [Zip(repo)][1..] == [];
    assert SignEach(env, fs, work, []) == Finished([]);
  }

  /** With every write permitted, staging stores the digest map, copies both files and
      writes the zip's two sidecars. */
  lemma ScenarioStage(env: Environment, repo: Path, work: Path, c: Classification)
    requires env.unwritable == {} && c.detached == [Zip(repo), ZipSignature(repo)]
    ensures var fs := Repository(repo, work);
      Stage(env, fs, work, c) == Finished([
        StoreProperties(PropertiesPath(work), c.sha1s, PropertiesComment),
        CopyOf(fs, work, Zip(repo)),
        CopyOf(fs, work, ZipSignature(repo)),
        Md5Sidecar(env, fs, work, Zip(repo)),
        Sha1Sidecar(env, fs, work, Zip(repo))])
  {
    ScenarioContents(repo, work);
    ScenarioCopies(env, repo, work);
    ScenarioSigning(env, repo, work);
    var fs := Repository(repo, work);
    assert MadeDirectory(fs, work) == [];
    Concatenation(StoreProperties(PropertiesPath(work), c.sha1s, PropertiesComment),
      CopyOf(fs, work, Zip(repo)), CopyOf(fs, work, ZipSignature(repo)),
      Md5Sidecar(env, fs, work, Zip(repo)), Sha1Sidecar(env, fs, work, Zip(repo)));
  }

  /** The scenario's writes, spelled out. */
  lemma ScenarioEffects(env: Environment, repo: Path, work: Path)
    ensures var fs := Repository(repo, work);
      && CopyOf(fs, work, Zip(repo)) == CopyFile(Zip(repo).file, InDirectory(work, "app.zip"), [2])
      && CopyOf(fs, work, ZipSignature(repo)) == CopyFile(ZipSignature(repo).file, InDirectory(work, "app.zip.asc"), [3])
      && Md5Sidecar(env, fs, work, Zip(repo))
         == WriteText(InDirectory(work, "app.zip") + ".md5", env.md5Hex([2]) + env.lineSeparator)
      && Sha1Sidecar(env, fs, work, Zip(repo))
         == WriteText(InDirectory(work, "app.zip") + ".sha1", env.sha1Hex([2]) + env.lineSeparator)
  {
    ScenarioNames(repo);
    ScenarioContents(repo, work);
  }

  /** Removing the two detached artifacts leaves the jar. */
  lemma ScenarioRemoval(repo: Path)
    ensures RemoveEach([Jar(repo), Zip(repo), ZipSignature(repo)], [Zip(repo), ZipSignature(repo)]) == [Jar(repo)]
  {
    var attached := [Jar(repo), Zip(repo), ZipSignature(repo)];
    var detached := [Zip(repo), ZipSignature(repo)];
    assert attached[1..] == [Zip(repo), ZipSignature(repo)] && [Jar(repo), ZipSignature(repo)][1..] == [ZipSignature(repo)];
    assert RemoveFirst(attached, Zip(repo)) == [Jar(repo), ZipSignature(repo)];
    assert RemoveFirst([Jar(repo), ZipSignature(repo)], ZipSignature(repo)) == [Jar(repo)];
    assert detached[1..] == [ZipSignature(repo)] && detached[1..][1..] == [];
    assert RemoveEach([Jar(repo)], []) == [Jar(repo)];
    assert RemoveEach([Jar(repo), ZipSignature(repo)], [ZipSignature(repo)]) == [Jar(repo)];
  }

  /** The zip and its signature are detached and copied, the jar stays attached, all three
      SHA-1s are recorded, and only the zip gets `.md5` and `.sha1` sidecars, each holding the
      digest of the zip's own bytes. */
  lemma JarZipAndSignature(env: Environment, repo: Path, work: Path, url: string)
    requires env.unwritable == {} && |url| > 0
    ensures var r := Run(env, Config(true, url, work), [Jar(repo), Zip(repo), ZipSignature(repo)], Repository(repo, work));
      && r.exit == Completed
      && r.attached == [Jar(repo)]
      && r.detached == [Zip(repo), ZipSignature(repo)]
      && r.sha1s == map["org-app-1.0-jar" := env.sha1Hex([1]), "org-app-1.0-zip" := env.sha1Hex([2]),
                        "org-app-1.0-zip.asc" := env.sha1Hex([3])]
      && r.effects == [
           StoreProperties(InDirectory(work, "sha1.properties"), r.sha1s, "release sha1s"),
           CopyFile(Zip(repo).file, InDirectory(work, "app.zip"), [2]),
           CopyFile(ZipSignature(repo).file, InDirectory(work, "app.zip.asc"), [3]),
           WriteText(InDirectory(work, "app.zip") + ".md5", env.md5Hex([2]) + env.lineSeparator),
           WriteText(InDirectory(work, "app.zip") + ".sha1", env.sha1Hex([2]) + env.lineSeparator)]
  {
    ScenarioClassification(env, repo, work);
    var attached := [Jar(repo), Zip(repo), ZipSignature(repo)];
    var c := Classify(env, Repository(repo, work), attached).value;
    ScenarioStage(env, repo, work, c);
    ScenarioEffects(env, repo, work);
    ScenarioRemoval(repo);
  }
}

=== FILE: sequences.dfy ===
/** Order-preserving filtering of a list and Java's `List.remove(Object)`, the two list
    operations the detachment step is built from. */
module Sequences {

  /** The elements of `s` that satisfy `p`, in their original order. */
  function Filter<T(!new)>(p: T -> bool, s: seq<T>): (r: seq<T>)
    ensures |r| <= |s|
    ensures forall x :: x in r <==> x in s && p(x)
  {
    if |s| == 0 then []
    else (if p(s[0]) then [s[0]] else []) + Filter(p, s[1..])
  }

  /** `t` can be obtained from `s` by deleting elements (greedy left-to-right match). */
  predicate IsSubsequence<T(==)>(t: seq<T>, s: seq<T>)
    decreases |s|
  {
    if |t| == 0 then true
    else if |s| == 0 then false
    else if t[0] == s[0] then IsSubsequence(t[1..], s[1..])
    else IsSubsequence(t, s[1..])
  }

  /** `List.remove(Object)`: drops the first element equal to `x`; unchanged if there is none. */
  function RemoveFirst<T(==)>(s: seq<T>, x: T): (r: seq<T>)
    ensures x !in s ==> r == s
    ensures x in s ==> multiset(r) + multiset{x} == multiset(s)
  {
    if |s| == 0 then s
    else
      assert s == [s[0]] + s[1..];
      if s[0] == x then s[1..] else [s[0]] + RemoveFirst(s[1..], x)
  }

  /** `List.remove(Object)` removes the first occurrence and keeps every other element in its
      place: the result is the list with index `i` cut out, where `i` is the first index
      holding `x`. */
  lemma {:induction false} RemoveFirstCutsFirstOccurrence<T>(s: seq<T>, x: T)
    ensures x in s ==> exists i :: CutsFirst(s, x, RemoveFirst(s, x), i)
  {
    if |s| > 0 && x in s {
      if s[0] == x {
        assert s[..0] + s[1..] == s[1..];
        assert CutsFirst(s, x, RemoveFirst(s, x), 0);
      } else {
        var t := s[1..];
        assert x in t by {
          assert s == [s[0]] + t;
        }
        RemoveFirstCutsFirstOccurrence(t, x);
        var j :| CutsFirst(t, x, RemoveFirst(t, x), j);
        CutsFirstUnderHead(s, x, RemoveFirst(t, x), j);
      }
    }
  }

  /** `r` is `s` without its element at `i`, the first index holding `x`. */
  ghost predicate CutsFirst<T>(s: seq<T>, x: T, r: seq<T>, i: int) {
    0 <= i < |s| && s[i] == x && (forall k :: 0 <= k < i ==> s[k] != x) && r == s[..i] + s[i + 1..]
  }

  lemma CutsFirstUnderHead<T>(s: seq<T>, x: T, r: seq<T>, j: int)
    requires |s| > 0 && s[0] != x && CutsFirst(s[1..], x, r, j)
    ensures CutsFirst(s, x, [s[0]] + r, j + 1)
  {
    var t := s[1..];
    assert s[..j + 1] == [s[0]] + t[..j];
    assert s[j + 2..] == t[j + 1..];
    AppendAssociative([s[0]], t[..j], t[j + 1..]);
  }

  /** One `List.remove(Object)` call per element of `xs`, in the order of `xs`. */
  function RemoveEach<T(==)>(s: seq<T>, xs: seq<T>): seq<T>
    decreases |xs|
  {
    if |xs| == 0 then s else RemoveEach(RemoveFirst(s, xs[0]), xs[1..])
  }

  lemma AppendAssociative<T>(a: seq<T>, b: seq<T>, c: seq<T>)
    ensures a + (b + c) == (a + b) + c
  {
  }

  /** Putting a common front before a prefix keeps it a prefix, and a proper one proper. */
  lemma PrefixUnderFront<T>(a: seq<T>, x: seq<T>, b: seq<T>)
    requires x <= b
    ensures a + x <= a + b
    ensures a + x == a + b <==> x == b
  {
    assert (a + b)[..|a + x|] == a + x;
    if a + x == a + b {
      assert x == (a + x)[|a|..] == (a + b)[|a|..] == b;
    }
  }

  /** Five elements written as one, two and two after an empty front. */
  lemma Concatenation<T>(a: T, b: T, c: T, d: T, e: T)
    ensures [] + [a] + [b, c] + [d, e] == [a, b, c, d, e]
  {
  }

  /** A prefix one longer is the prefix followed by the next element. */
  lemma TakeOneMore<T>(s: seq<T>, k: nat)
    requires k < |s|
    ensures s[..k + 1] == s[..k] + [s[k]]
  {
  }

  /** A non-empty prefix is the head followed by a prefix of the tail. */
  lemma TakeAfterHead<T>(s: seq<T>, m: nat)
    requires 0 < m <= |s|
    ensures s[..m][0] == s[0] && s[..m][1..] == s[1..][..m - 1]
    ensures m < |s| ==> s[m] == s[1..][m - 1]
  {
  }

  /** Filtering distributes over appending one element at the end. */
  lemma {:induction false} FilterSnoc<T(!new)>(p: T -> bool, s: seq<T>, x: T)
    ensures Filter(p, s + [x]) == Filter(p, s) + (if p(x) then [x] else [])
  {
    if |s| == 0 {
      assert s + [x] == [x];
    } else {
      assert (s + [x])[0] == s[0];
      assert (s + [x])[1..] == s[1..] + [x];
      FilterSnoc(p, s[1..], x);
    }
  }

  /** The elements of a non-empty list, counted with multiplicity, are its head and the
      elements of its tail. */
  lemma MultisetOfHeadTail<T>(s: seq<T>)
    requires |s| > 0
    ensures multiset(s) == multiset{s[0]} + multiset(s[1..])
  {
    assert s == [s[0]] + s[1..];
  }

  /** The filter keeps its selection in the original order. */
  lemma {:induction false} FilterIsSubsequence<T(!new)>(p: T -> bool, s: seq<T>)
    ensures IsSubsequence(Filter(p, s), s)
  {
    if |s| > 0 {
      FilterIsSubsequence(p, s[1..]);
      var f := Filter(p, s);
      var rest := Filter(p, s[1..]);
      if p(s[0]) {
        assert f == [s[0]] + rest;
        assert f[0] == s[0] && f[1..] == rest;
      } else {
        assert f == rest;
        if |f| > 0 {
          assert f[0] in rest;
          assert f[0] != s[0];
        }
      }
    }
  }

  /** The filter keeps every occurrence of each element satisfying `p`, and nothing else. */
  lemma {:induction false} FilterCounts<T(!new)>(p: T -> bool, s: seq<T>)
    ensures forall x :: multiset(Filter(p, s))[x] == if p(x) then multiset(s)[x] else 0
  {
    if |s| > 0 {
      FilterCounts(p, s[1..]);
      var rest := Filter(p, s[1..]);
      var head := if p(s[0]) then [s[0]] else [];
      assert Filter(p, s) == head + rest;
      assert multiset(Filter(p, s)) == multiset(head) + multiset(rest);
      MultisetOfHeadTail(s);
    }
  }

  /** The filter keeps exactly the occurrences of elements satisfying `p`, and keeps them in
      order: together these two facts determine the filter uniquely. */
  lemma FilterIsOrderedSelection<T(!new)>(p: T -> bool, s: seq<T>)
    ensures IsSubsequence(Filter(p, s), s)
    ensures forall x :: multiset(Filter(p, s))[x] == if p(x) then multiset(s)[x] else 0
  {
    FilterIsSubsequence(p, s);
    FilterCounts(p, s);
  }

  /** Filtering by a predicate and by its negation splits a list into two parts whose union,
      counted with multiplicity, is the whole list. */
  lemma FilterPartition<T(!new)>(p: T -> bool, q: T -> bool, s: seq<T>)
    requires forall x :: q(x) == !p(x)
    ensures multiset(Filter(p, s)) + multiset(Filter(q, s)) == multiset(s)
  {
    FilterCounts(p, s);
    FilterCounts(q, s);
    var sum := multiset(Filter(p, s)) + multiset(Filter(q, s));
    forall x
      ensures sum[x] == multiset(s)[x]
    {
      assert sum[x] == multiset(Filter(p, s))[x] + multiset(Filter(q, s))[x];
    }
  }

  /** Removal calls for elements other than the head leave the head in front. */
  lemma {:induction false} RemoveEachKeepsHead<T>(x: T, s: seq<T>, xs: seq<T>)
    requires x !in xs
    ensures RemoveEach([x] + s, xs) == [x] + RemoveEach(s, xs)
    decreases |xs|
  {
    if |xs| > 0 {
      assert xs[0] in xs;
      assert ([x] + s)[0] == x && ([x] + s)[1..] == s;
      assert RemoveFirst([x] + s, xs[0]) == [x] + RemoveFirst(s, xs[0]);
      assert forall y :: y in xs[1..] ==> y in xs;
      RemoveEachKeepsHead(x, RemoveFirst(s, xs[0]), xs[1..]);
    }
  }

  /** Removing, one call at a time, every element the filter by `p` selected leaves exactly
      the filter by the negation of `p`. */
  lemma {:induction false} RemoveEachFiltered<T(!new)>(p: T -> bool, q: T -> bool, s: seq<T>)
    requires forall x :: q(x) == !p(x)
    ensures RemoveEach(s, Filter(p, s)) == Filter(q, s)
  {
    if |s| > 0 {
      var rest := s[1..];
      assert s == [s[0]] + rest;
      RemoveEachFiltered(p, q, rest);
      if p(s[0]) {
        var f := Filter(p, s);
        assert f == [s[0]] + Filter(p, rest);
        assert f[0] == s[0] && f[1..] == Filter(p, rest);
        assert RemoveFirst(s, s[0]) == rest;
      } else {
        assert Filter(p, s) == Filter(p, rest);
        RemoveEachKeepsHead(s[0], rest, Filter(p, rest));
      }
    }
  }

  /** Removing what the filter by `p` selected leaves the elements failing `p`, in order;
      what is removed and what is left together make up the list, and nothing is in both. */
  lemma RemovingFilteredPartitions<T(!new)>(p: T -> bool, q: T -> bool, s: seq<T>)
    requires forall x :: q(x) == !p(x)
    ensures var left := RemoveEach(s, Filter(p, s));
      && left == Filter(q, s)
      && multiset(left) + multiset(Filter(p, s)) == multiset(s)
      && (forall x :: x in left <==> x in s && q(x))
      && (forall x :: x in Filter(p, s) ==> x !in left)
  {
    RemoveEachFiltered(p, q, s);
    FilterPartition(p, q, s);
  }
}

=== FILE: staged_files.dfy ===
/** What the working directory holds after a run: the file-level view of the writes. */
module StagedFiles {
  import opened Sequences
  import opened Artifacts
  import opened Files
  import opened Detachment
  import opened StagingPlan
  import opened DetachmentProperties

  /** Two different names give two different files of one directory. */
  lemma ChildrenDiffer(dir: Path, n: string, m: string)
    requires n != m
    ensures InDirectory(dir, n) != InDirectory(dir, m)
  {
    AppendCancel(n, m, dir + "/", "");
    assert dir + "/" + n + "" == InDirectory(dir, n);
    assert dir + "/" + m + "" == InDirectory(dir, m);
  }

  /** A sidecar never lands on `sha1.properties`. */
  lemma SidecarsMissProperties(dir: Path, a: Artifact)
    ensures Md5Path(dir, a) != PropertiesPath(dir) && Sha1Path(dir, a) != PropertiesPath(dir)
  {
    var p := PropertiesPath(dir);
    var m := Md5Path(dir, a);
    var s := Sha1Path(dir, a);
    assert p[|p| - 1] == 's';
    assert m[|m| - 1] == '5';
    assert s[|s| - 1] == '1';
  }

  /** The writes of `tail` decide what `p` holds after `head + tail`, when `tail` writes `p`
      and every write of `tail` to `p` leaves the same bytes. */
  lemma TailDecides(env: Environment, fs: FileSystem, head: seq<Effect>, tail: seq<Effect>, p: Path, data: Bytes)
    requires exists e :: e in tail && !e.MakeDirectory? && e.Target() == p
    requires forall e :: e in tail && !e.MakeDirectory? && e.Target() == p ==> Content(env, e) == data
    ensures var files := Apply(env, fs, head + tail).files;
      p in files && files[p] == data
  {
    var all := head + tail;
    var e :| e in tail && !e.MakeDirectory? && e.Target() == p;
    var t :| 0 <= t < |tail| && tail[t] == e;
    assert all[|head| + t] == e;
    forall i | |head| <= i < |all| && !all[i].MakeDirectory? && all[i].Target() == p
      ensures Content(env, all[i]) == data
    {
      assert all[i] == tail[i - |head|];
    }
    LaterWritesAgree(env, fs, all, |head|, p, data);
  }

  /** `a` and `b` are readable and have the same bytes. */
  predicate SameBytes(fs: FileSystem, a: Artifact, b: Artifact) {
    a.file in fs.files && b.file in fs.files && fs.files[a.file] == fs.files[b.file]
  }

  /** Every planned copy is the copy of one of the artifacts. */
  lemma CopyOrigin(fs: FileSystem, dir: Path, ds: seq<Artifact>, e: Effect) returns (b: Artifact)
    requires forall a :: a in ds ==> Readable(fs, a)
    requires e in AllCopies(fs, dir, ds)
    ensures b in ds && e == CopyOf(fs, dir, b)
  {
    var i :| 0 <= i < |ds| && AllCopies(fs, dir, ds)[i] == e;
    b := ds[i];
  }

  /** Every planned sidecar is the `.md5` or the `.sha1` of one of the artifacts. */
  lemma SidecarOrigin(env: Environment, fs: FileSystem, dir: Path, ss: seq<Artifact>, e: Effect) returns (b: Artifact)
    requires forall a :: a in ss ==> Readable(fs, a)
    requires e in AllSidecars(env, fs, dir, ss)
    ensures b in ss && (e == Md5Sidecar(env, fs, dir, b) || e == Sha1Sidecar(env, fs, dir, b))
  {
    var i :| 0 <= i < |ss| && (e == Md5Sidecar(env, fs, dir, ss[i]) || e == Sha1Sidecar(env, fs, dir, ss[i]));
    b := ss[i];
  }

  /** The planned `sha1.properties` holds the stored digest map, unless a detached artifact's
      own file is named `sha1.properties` (its copy would replace the map). */
  lemma PlanLeavesDigestMap(env: Environment, fs: FileSystem, dir: Path, c: Classification)
    requires forall a :: a in c.detached ==> Readable(fs, a)
    requires forall a :: a in c.detached ==> FileName(a) != PropertiesFileName
    ensures var files := Apply(env, fs, Plan(env, fs, dir, c)).files;
      PropertiesPath(dir) in files && files[PropertiesPath(dir)] == env.storeFormat(c.sha1s, PropertiesComment)
  {
    var made := MadeDirectory(fs, dir);
    var store := StoreProperties(PropertiesPath(dir), c.sha1s, PropertiesComment);
    var copies := AllCopies(fs, dir, c.detached);
    var signed := Filter(NeedsSidecars, c.detached);
    var sidecars := AllSidecars(env, fs, dir, signed);
    var p := PropertiesPath(dir);
    var tail := [store] + copies + sidecars;
    assert Plan(env, fs, dir, c) == made + tail;
    assert store in tail;
    forall e | e in tail && !e.MakeDirectory?
      ensures e.Target() == p ==> Content(env, e) == env.storeFormat(c.sha1s, PropertiesComment)
    {
      if e in copies {
        var b := CopyOrigin(fs, dir, c.detached, e);
        ChildrenDiffer(dir, FileName(b), PropertiesFileName);
      } else if e in sidecars {
        var b := SidecarOrigin(env, fs, dir, signed, e);
        SidecarsMissProperties(dir, b);
      }
    }
    TailDecides(env, fs, made, tail, p, env.storeFormat(c.sha1s, PropertiesComment));
  }

  /** The planned copy of a detached artifact holds its file's bytes, provided every detached
      artifact with the same file name has the same bytes and no planned sidecar takes the
      copy's name. */
  lemma PlanLeavesCopy(env: Environment, fs: FileSystem, dir: Path, c: Classification, a: Artifact)
    requires forall b :: b in c.detached ==> Readable(fs, b)
    requires a in c.detached
    requires forall b :: b in c.detached && FileName(b) == FileName(a) ==> SameBytes(fs, a, b)
    requires forall b :: b in c.detached && NeedsSidecars(b) ==>
      Md5Path(dir, b) != StagedPath(dir, a) && Sha1Path(dir, b) != StagedPath(dir, a)
    ensures var files := Apply(env, fs, Plan(env, fs, dir, c)).files;
      StagedPath(dir, a) in files && files[StagedPath(dir, a)] == fs.files[a.file]
  {
    var head := MadeDirectory(fs, dir) + [StoreProperties(PropertiesPath(dir), c.sha1s, PropertiesComment)];
    var copies := AllCopies(fs, dir, c.detached);
    var signed := Filter(NeedsSidecars, c.detached);
    var sidecars := AllSidecars(env, fs, dir, signed);
    var p := StagedPath(dir, a);
    var tail := copies + sidecars;
    assert Plan(env, fs, dir, c) == head + tail;
    CopiesAgree(fs, dir, c.detached, a);
    SidecarsSpareCopy(env, fs, dir, signed, a);
    assert CopyOf(fs, dir, a) in tail;
    TailDecides(env, fs, head, tail, p, fs.files[a.file]);
  }

  /** Among the copies of `ds`, every write to `a`'s staged path leaves `a`'s bytes, when the
      artifacts of `ds` named like `a` have its bytes. */
  lemma CopiesAgree(fs: FileSystem, dir: Path, ds: seq<Artifact>, a: Artifact)
    requires forall b :: b in ds ==> Readable(fs, b)
    requires a in ds
    requires forall b :: b in ds && FileName(b) == FileName(a) ==> SameBytes(fs, a, b)
    ensures CopyOf(fs, dir, a) in AllCopies(fs, dir, ds)
    ensures forall e :: e in AllCopies(fs, dir, ds) && e.Target() == StagedPath(dir, a) ==>
      e.CopyFile? && e.data == fs.files[a.file]
  {
    var copies := AllCopies(fs, dir, ds);
    var t :| 0 <= t < |ds| && ds[t] == a;
    assert copies[t] == CopyOf(fs, dir, a);
    forall e | e in copies
      ensures e.Target() == StagedPath(dir, a) ==> e.CopyFile? && e.data == fs.files[a.file]
    {
      var b := CopyOrigin(fs, dir, ds, e);
      WorkingDirectoryNames(dir, a, b);
    }
  }

  /** No sidecar of `ss` lands on `a`'s staged path when none is named like it. */
  lemma SidecarsSpareCopy(env: Environment, fs: FileSystem, dir: Path, ss: seq<Artifact>, a: Artifact)
    requires forall b :: b in ss ==> Readable(fs, b)
    requires forall b :: b in ss ==> Md5Path(dir, b) != StagedPath(dir, a) && Sha1Path(dir, b) != StagedPath(dir, a)
    ensures forall e :: e in AllSidecars(env, fs, dir, ss) ==> e.Target() != StagedPath(dir, a)
  {
    forall e | e in AllSidecars(env, fs, dir, ss)
      ensures e.Target() != StagedPath(dir, a)
    {
      var b := SidecarOrigin(env, fs, dir, ss, e);
    }
  }

  /** The planned sidecars of a detached artifact whose name does not contain "asc" hold the
      MD5 and the SHA-1 of its file and a line separator, provided every detached artifact with
      the same file name has the same bytes. */
  lemma PlanLeavesSidecars(env: Environment, fs: FileSystem, dir: Path, c: Classification, a: Artifact)
    requires forall b :: b in c.detached ==> Readable(fs, b)
    requires a in c.detached && NeedsSidecars(a)
    requires forall b :: b in c.detached && FileName(b) == FileName(a) ==> SameBytes(fs, a, b)
    ensures var files := Apply(env, fs, Plan(env, fs, dir, c)).files;
      && Md5Path(dir, a) in files && files[Md5Path(dir, a)] == env.encode(env.md5Hex(fs.files[a.file]) + env.lineSeparator)
      && Sha1Path(dir, a) in files && files[Sha1Path(dir, a)] == env.encode(env.sha1Hex(fs.files[a.file]) + env.lineSeparator)
  {
    PlanLeavesSidecar(env, fs, dir, c, a, true);
    PlanLeavesSidecar(env, fs, dir, c, a, false);
  }

  /** One of the two sidecars: the `.md5` when `md5` holds, the `.sha1` otherwise. */
  lemma PlanLeavesSidecar(env: Environment, fs: FileSystem, dir: Path, c: Classification, a: Artifact, md5: bool)
    requires forall b :: b in c.detached ==> Readable(fs, b)
    requires a in c.detached && NeedsSidecars(a)
    requires forall b :: b in c.detached && FileName(b) == FileName(a) ==> SameBytes(fs, a, b)
    ensures var files := Apply(env, fs, Plan(env, fs, dir, c)).files;
      var e := if md5 then Md5Sidecar(env, fs, dir, a) else Sha1Sidecar(env, fs, dir, a);
      e.Target() in files && files[e.Target()] == Content(env, e)
  {
    var head := MadeDirectory(fs, dir) + [StoreProperties(PropertiesPath(dir), c.sha1s, PropertiesComment)]
      + AllCopies(fs, dir, c.detached);
    var signed := Filter(NeedsSidecars, c.detached);
    var sidecars := AllSidecars(env, fs, dir, signed);
    var mine := if md5 then Md5Sidecar(env, fs, dir, a) else Sha1Sidecar(env, fs, dir, a);
    assert Plan(env, fs, dir, c) == head + sidecars;
    assert a in signed;
    SidecarsAgree(env, fs, dir, signed, a, md5);
    TailDecides(env, fs, head, sidecars, mine.Target(), Content(env, mine));
  }

  /** Among the sidecars of `ss`, every write to the path of `a`'s `.md5` (or `.sha1`) leaves
      what `a`'s own sidecar leaves, when the artifacts of `ss` named like `a` have its bytes. */
  lemma SidecarsAgree(env: Environment, fs: FileSystem, dir: Path, ss: seq<Artifact>, a: Artifact, md5: bool)
    requires forall b :: b in ss ==> Readable(fs, b)
    requires a in ss
    requires forall b :: b in ss && FileName(b) == FileName(a) ==> SameBytes(fs, a, b)
    ensures var mine := if md5 then Md5Sidecar(env, fs, dir, a) else Sha1Sidecar(env, fs, dir, a);
      && mine in AllSidecars(env, fs, dir, ss)
      && forall e :: e in AllSidecars(env, fs, dir, ss) && !e.MakeDirectory? && e.Target() == mine.Target() ==>
           Content(env, e) == Content(env, mine)
  {
    var sidecars := AllSidecars(env, fs, dir, ss);
    var mine := if md5 then Md5Sidecar(env, fs, dir, a) else Sha1Sidecar(env, fs, dir, a);
    var s :| 0 <= s < |ss| && ss[s] == a;
    assert mine in sidecars;
    forall e | e in sidecars && !e.MakeDirectory?
      ensures e.Target() == mine.Target() ==> Content(env, e) == Content(env, mine)
    {
      var b := SidecarOrigin(env, fs, dir, ss, e);
      WorkingDirectoryNames(dir, a, b);
      WorkingDirectoryNames(dir, b, a);
    }
  }

  /** A completed run performed exactly the plan for the artifacts it detached. */
  lemma CompletedRunFollowsPlan(env: Environment, config: Config, attached: seq<Artifact>, fs: FileSystem)
    requires Run(env, config, attached, fs).exit == Completed
    ensures var r := Run(env, config, attached, fs);
      && (forall a :: a in r.detached ==> Readable(fs, a))
      && r.effects == Plan(env, fs, config.workingDirectory, Classification(r.detached, r.sha1s))
  {
    var r := Run(env, config, attached, fs);
    DetachedAreReadable(env, config, attached, fs);
    StageFollowsPlan(env, fs, config.workingDirectory, Classification(r.detached, r.sha1s));
  }

  /** After a completed run, `sha1.properties` in the working directory holds the stored
      digest map of the detached artifacts, unless one of their own files is itself named
      `sha1.properties`. */
  lemma CompletedRunLeavesDigestMap(env: Environment, config: Config, attached: seq<Artifact>, fs: FileSystem)
    requires Run(env, config, attached, fs).exit == Completed
    requires forall a :: a in attached && IsDetachable(a) ==> FileName(a) != PropertiesFileName
    ensures var r := Run(env, config, attached, fs);
      var files := Apply(env, fs, r.effects).files;
      var p := PropertiesPath(config.workingDirectory);
      p in files && files[p] == env.storeFormat(r.sha1s, PropertiesComment)
  {
    var r := Run(env, config, attached, fs);
    CompletedRunFollowsPlan(env, config, attached, fs);
    ClassifyDetachesFilter(env, fs, attached);
    assert r.detached == Filter(IsDetachable, attached);
    PlanLeavesDigestMap(env, fs, config.workingDirectory, Classification(r.detached, r.sha1s));
  }

  /** After a completed run, the working directory holds a byte-for-byte copy of each
      detached artifact whose file name no other detached artifact with different bytes
      shares and no sidecar takes. */
  lemma CompletedRunLeavesCopy(env: Environment, config: Config, attached: seq<Artifact>, fs: FileSystem, a: Artifact)
    requires Run(env, config, attached, fs).exit == Completed
    requires a in attached && IsDetachable(a)
    requires forall b :: b in attached && IsDetachable(b) && FileName(b) == FileName(a) ==> SameBytes(fs, a, b)
    requires forall b :: b in attached && IsDetachable(b) && NeedsSidecars(b) ==>
      Md5Path(config.workingDirectory, b) != StagedPath(config.workingDirectory, a)
      && Sha1Path(config.workingDirectory, b) != StagedPath(config.workingDirectory, a)
    ensures var r := Run(env, config, attached, fs);
      var files := Apply(env, fs, r.effects).files;
      var p := StagedPath(config.workingDirectory, a);
      p in files && a.file in fs.files && files[p] == fs.files[a.file]
  {
    var r := Run(env, config, attached, fs);
    CompletedRunFollowsPlan(env, config, attached, fs);
    ClassifyDetachesFilter(env, fs, attached);
    assert r.detached == Filter(IsDetachable, attached);
    PlanLeavesCopy(env, fs, config.workingDirectory, Classification(r.detached, r.sha1s), a);
  }

  /** After a completed run, each detached artifact whose file name does not contain "asc"
      has its `.md5` and `.sha1` files holding the MD5 and the SHA-1 of its bytes followed by
      the line separator, provided every detached artifact with its file name has its bytes. */
  lemma CompletedRunLeavesSidecars(env: Environment, config: Config, attached: seq<Artifact>, fs: FileSystem, a: Artifact)
    requires Run(env, config, attached, fs).exit == Completed
    requires a in attached && IsDetachable(a) && NeedsSidecars(a)
    requires forall b :: b in attached && IsDetachable(b) && FileName(b) == FileName(a) ==> SameBytes(fs, a, b)
    ensures var r := Run(env, config, attached, fs);
      var files := Apply(env, fs, r.effects).files;
      var dir := config.workingDirectory;
      && a.file in fs.files
      && Md5Path(dir, a) in files && files[Md5Path(dir, a)] == env.encode(env.md5Hex(fs.files[a.file]) + env.lineSeparator)
      && Sha1Path(dir, a) in files && files[Sha1Path(dir, a)] == env.encode(env.sha1Hex(fs.files[a.file]) + env.lineSeparator)
  {
    var r := Run(env, config, attached, fs);
    CompletedRunFollowsPlan(env, config, attached, fs);
    ClassifyDetachesFilter(env, fs, attached);
    assert r.detached == Filter(IsDetachable, attached);
    PlanLeavesSidecars(env, fs, config.workingDirectory, Classification(r.detached, r.sha1s), a);
  }
}

=== FILE: staging_plan.dfy ===
/** The writes a run performs once something is detached, compared with the full plan:
    working directory, `sha1.properties`, one copy per detached artifact, two sidecars per
    artifact whose file name does not contain "asc". A run that stops early has performed a
    prefix of this plan and undone nothing. */
module StagingPlan {
  import opened Sequences
  import opened Artifacts
  import opened Files
  import opened Detachment

  /** The copies of every artifact of `ds`, in order. */
  function AllCopies(fs: FileSystem, dir: Path, ds: seq<Artifact>): (r: seq<Effect>)
    requires forall a :: a in ds ==> Readable(fs, a)
    ensures |r| == |ds|
    ensures forall i :: 0 <= i < |ds| ==> r[i] == CopyOf(fs, dir, ds[i])
  {
    seq(|ds|, i requires 0 <= i < |ds| => CopyOf(fs, dir, ds[i]))
  }

  /** The writes of a run that detaches `c.detached` and meets no failure. */
  function Plan(env: Environment, fs: FileSystem, dir: Path, c: Classification): seq<Effect>
    requires forall a :: a in c.detached ==> Readable(fs, a)
  {
    MadeDirectory(fs, dir)
    + [StoreProperties(PropertiesPath(dir), c.sha1s, PropertiesComment)]
    + AllCopies(fs, dir, c.detached)
    + AllSidecars(env, fs, dir, Filter(NeedsSidecars, c.detached))
  }

  /** The plan stores the digest map, copies every detached artifact, and writes both
      sidecars of every detached artifact whose file name does not contain "asc". */
  lemma PlanWritesEverything(env: Environment, fs: FileSystem, dir: Path, c: Classification)
    requires forall a :: a in c.detached ==> Readable(fs, a)
    ensures var plan := Plan(env, fs, dir, c);
      && StoreProperties(PropertiesPath(dir), c.sha1s, PropertiesComment) in plan
      && (forall a :: a in c.detached ==> CopyOf(fs, dir, a) in plan)
      && (forall a :: a in c.detached && NeedsSidecars(a) ==>
            Md5Sidecar(env, fs, dir, a) in plan && Sha1Sidecar(env, fs, dir, a) in plan)
  {
    var plan := Plan(env, fs, dir, c);
    var made := MadeDirectory(fs, dir);
    var copies := AllCopies(fs, dir, c.detached);
    var signed := Filter(NeedsSidecars, c.detached);
    var sidecars := AllSidecars(env, fs, dir, signed);
    assert plan == made + [StoreProperties(PropertiesPath(dir), c.sha1s, PropertiesComment)] + copies + sidecars;
    forall a | a in c.detached
      ensures CopyOf(fs, dir, a) in plan
    {
      var i :| 0 <= i < |c.detached| && c.detached[i] == a;
      assert copies[i] in copies;
    }
    forall a | a in c.detached && NeedsSidecars(a)
      ensures Md5Sidecar(env, fs, dir, a) in plan && Sha1Sidecar(env, fs, dir, a) in plan
    {
      var k :| 0 <= k < |signed| && signed[k] == a;
      assert Md5Sidecar(env, fs, dir, a) in sidecars;
      assert Sha1Sidecar(env, fs, dir, a) in sidecars;
    }
  }

  /** The copy stage performs the first copies of the plan, all of them when it finishes. */
  lemma CopyStageFollowsPlan(env: Environment, fs: FileSystem, dir: Path, ds: seq<Artifact>)
    requires forall a :: a in ds ==> Readable(fs, a)
    ensures CopyStage(env, fs, dir, ds).effects == AllCopies(fs, dir, ds)[..|CopyStage(env, fs, dir, ds).effects|]
  {
  }

  /** The sidecars of a prefix of `ss` are a prefix of the sidecars of `ss`, and the next
      planned write is the `.md5` of the next artifact. */
  lemma {:induction false} AllSidecarsOfPrefix(env: Environment, fs: FileSystem, dir: Path, ss: seq<Artifact>, m: nat)
    requires forall a :: a in ss ==> Readable(fs, a)
    requires m <= |ss|
    ensures AllSidecars(env, fs, dir, ss[..m]) == AllSidecars(env, fs, dir, ss)[..2 * m]
    ensures m < |ss| ==> AllSidecars(env, fs, dir, ss)[2 * m] == Md5Sidecar(env, fs, dir, ss[m])
    decreases m
  {
    var all := AllSidecars(env, fs, dir, ss);
    if m == 0 {
      assert ss[..0] == [];
      if |ss| > 0 {
        assert all == [Md5Sidecar(env, fs, dir, ss[0]), Sha1Sidecar(env, fs, dir, ss[0])]
                      + AllSidecars(env, fs, dir, ss[1..]);
      }
    } else {
      AllSidecarsOfPrefix(env, fs, dir, ss[1..], m - 1);
      TakeAfterHead(ss, m);
      var head := [Md5Sidecar(env, fs, dir, ss[0]), Sha1Sidecar(env, fs, dir, ss[0])];
      var rest := AllSidecars(env, fs, dir, ss[1..]);
      assert all == head + rest;
      assert AllSidecars(env, fs, dir, ss[..m]) == head + AllSidecars(env, fs, dir, ss[1..][..m - 1]);
      assert all[..2 * m] == head + rest[..2 * (m - 1)];
      if m < |ss| {
        assert all[2 * m] == rest[2 * (m - 1)];
      }
    }
  }

  /** Signing a list performs a prefix of its planned sidecars, all of them when it
      finishes. */
  lemma SignEachFollowsAllSidecars(env: Environment, fs: FileSystem, dir: Path, ss: seq<Artifact>)
    requires forall a :: a in ss ==> Readable(fs, a)
    ensures var p := SignEach(env, fs, dir, ss);
      p.effects <= AllSidecars(env, fs, dir, ss) && (p.Finished? <==> p.effects == AllSidecars(env, fs, dir, ss))
  {
    var m := FirstUnsignable(env, fs, dir, ss);
    SignEachFollowsPlan(env, fs, dir, ss);
    AllSidecarsOfPrefix(env, fs, dir, ss, m);
    var all := AllSidecars(env, fs, dir, ss);
    if m < |ss| {
      TakeOneMore(all, 2 * m);
    } else {
      assert ss[..m] == ss;
    }
  }

  /** The signing stage performs a prefix of the planned sidecars, all of them when it
      finishes. */
  lemma SignStageFollowsPlan(env: Environment, fs: FileSystem, dir: Path, ds: seq<Artifact>)
    requires forall a :: a in ds ==> Readable(fs, a)
    ensures var p := SignStage(env, fs, dir, ds);
      var all := AllSidecars(env, fs, dir, Filter(NeedsSidecars, ds));
      p.effects <= all && (p.Finished? <==> p.effects == all)
  {
    SignEachFollowsAllSidecars(env, fs, dir, Filter(NeedsSidecars, ds));
  }

  /** Whatever the stages after removal meet, they have performed a prefix of the plan; they
      have performed all of it exactly when they finish. */
  lemma {:induction false} StageFollowsPlan(env: Environment, fs: FileSystem, dir: Path, c: Classification)
    requires forall a :: a in c.detached ==> Readable(fs, a)
    ensures var p := Stage(env, fs, dir, c);
      p.effects <= Plan(env, fs, dir, c) && (p.Finished? <==> p.effects == Plan(env, fs, dir, c))
  {
    var p := Stage(env, fs, dir, c);
    var made := MadeDirectory(fs, dir);
    var stored := made + [StoreProperties(PropertiesPath(dir), c.sha1s, PropertiesComment)];
    var copies := AllCopies(fs, dir, c.detached);
    var sidecars := AllSidecars(env, fs, dir, Filter(NeedsSidecars, c.detached));
    var plan := Plan(env, fs, dir, c);
    AppendAssociative(stored, copies, sidecars);
    if !Exists(fs, dir) && dir in env.unwritable {
      assert p.effects == [] && |plan| > 0;
    } else if PropertiesPath(dir) in env.unwritable {
      var rest := [StoreProperties(PropertiesPath(dir), c.sha1s, PropertiesComment)] + copies + sidecars;
      assert plan == made + rest by {
        AppendAssociative(made, [StoreProperties(PropertiesPath(dir), c.sha1s, PropertiesComment)], copies);
        AppendAssociative(made, [StoreProperties(PropertiesPath(dir), c.sha1s, PropertiesComment)] + copies, sidecars);
      }
      PrefixUnderFront(made, [], rest);
      assert made + [] == made;
    } else {
      var cs := CopyStage(env, fs, dir, c.detached);
      CopyStageFollowsPlan(env, fs, dir, c.detached);
      if cs.Aborted? {
        assert p.effects == stored + cs.effects;
        assert cs.effects <= copies + sidecars && cs.effects != copies + sidecars;
        PrefixUnderFront(stored, cs.effects, copies + sidecars);
      } else {
        assert cs.effects == copies;
        var ss := SignStage(env, fs, dir, c.detached);
        SignStageFollowsPlan(env, fs, dir, c.detached);
        assert p.effects == stored + copies + ss.effects;
        AppendAssociative(stored, copies, ss.effects);
        PrefixUnderFront(copies, ss.effects, sidecars);
        PrefixUnderFront(stored, copies + ss.effects, copies + sidecars);
      }
    }
  }

  /** What each failure of the stages after removal leaves written: nothing when the
      directory cannot be created, only the directory when the digest map cannot be stored,
      the copies before the failed one, or every copy and the sidecars before the artifact
      that could not be signed. */
  lemma StageFailures(env: Environment, fs: FileSystem, dir: Path, c: Classification)
    ensures var p := Stage(env, fs, dir, c);
      var n := |MadeDirectory(fs, dir)|;
      && (p.Aborted? && p.failure.DirectoryNotCreated? ==>
            p.failure.dir == dir && !Exists(fs, dir) && p.effects == [])
      && (p.Aborted? && p.failure.PropertiesNotWritten? ==>
            p.failure.file == PropertiesPath(dir) && p.effects == MadeDirectory(fs, dir))
      && (p.Aborted? && p.failure.CopyFailed? ==>
            exists k :: 0 <= k < |c.detached| && |p.effects| == n + 1 + k
              && !CanCopy(env, fs, dir, c.detached[k])
              && p.failure == CopyFailed(c.detached[k].file, StagedPath(dir, c.detached[k])))
      && (p.Aborted? && p.failure.SignFailed? ==>
            var signed := Filter(NeedsSidecars, c.detached);
            var m := FirstUnsignable(env, fs, dir, signed);
            m < |signed| && p.failure == SignFailed(FileName(signed[m]))
            && |p.effects| == n + 1 + |c.detached| + 2 * m + (if CanWriteMd5(env, fs, dir, signed[m]) then 1 else 0))
  {
    var p := Stage(env, fs, dir, c);
    if p.Aborted? && p.failure.CopyFailed? {
      var cs := CopyStage(env, fs, dir, c.detached);
      var k := |cs.effects|;
      assert 0 <= k < |c.detached| && |p.effects| == |MadeDirectory(fs, dir)| + 1 + k;
    }
  }

  /** The planned writes come stage by stage: the directory, then `sha1.properties`, then
      the copies, then the sidecars. */
  lemma PlanIsInStageOrder(env: Environment, fs: FileSystem, dir: Path, c: Classification)
    requires forall a :: a in c.detached ==> Readable(fs, a)
    ensures InStageOrder(Plan(env, fs, dir, c))
  {
    var made := MadeDirectory(fs, dir);
    var store := [StoreProperties(PropertiesPath(dir), c.sha1s, PropertiesComment)];
    var copies := AllCopies(fs, dir, c.detached);
    var sidecars := AllSidecars(env, fs, dir, Filter(NeedsSidecars, c.detached));
    OneStageInOrder(made, 0);
    OneStageInOrder(store, 1);
    AppendInStageOrder(made, store, 1);
    var stored := made + store;
    assert forall i :: 0 <= i < |stored| ==> Phase(stored[i]) <= 1;
    CopiesAreOneStage(fs, dir, c.detached);
    AppendInStageOrder(stored, copies, 2);
    var copied := stored + copies;
    assert forall i :: 0 <= i < |copied| ==> Phase(copied[i]) <= 2;
    SidecarsAreOneStage(env, fs, dir, Filter(NeedsSidecars, c.detached));
    AppendInStageOrder(copied, sidecars, 3);
  }

  lemma CopiesAreOneStage(fs: FileSystem, dir: Path, ds: seq<Artifact>)
    requires forall a :: a in ds ==> Readable(fs, a)
    ensures InStageOrder(AllCopies(fs, dir, ds))
    ensures forall i :: 0 <= i < |AllCopies(fs, dir, ds)| ==> Phase(AllCopies(fs, dir, ds)[i]) == 2
  {
    OneStageInOrder(AllCopies(fs, dir, ds), 2);
  }

  lemma SidecarsAreOneStage(env: Environment, fs: FileSystem, dir: Path, xs: seq<Artifact>)
    requires forall a :: a in xs ==> Readable(fs, a)
    ensures InStageOrder(AllSidecars(env, fs, dir, xs))
    ensures forall i :: 0 <= i < |AllSidecars(env, fs, dir, xs)| ==> Phase(AllSidecars(env, fs, dir, xs)[i]) == 3
  {
    var r := AllSidecars(env, fs, dir, xs);
    forall i | 0 <= i < |r|
      ensures Phase(r[i]) == 3
    {
      assert r[i] in r;
    }
    OneStageInOrder(r, 3);
  }

  /** The only text files the plan writes are the sidecars of detached artifacts whose file
      name does not contain "asc". */
  lemma PlannedTextIsSidecar(env: Environment, fs: FileSystem, dir: Path, c: Classification, e: Effect)
    requires forall a :: a in c.detached ==> Readable(fs, a)
    requires e in Plan(env, fs, dir, c) && e.WriteText?
    ensures exists a :: (a in c.detached && NeedsSidecars(a) && Readable(fs, a)
                         && (e == Md5Sidecar(env, fs, dir, a) || e == Sha1Sidecar(env, fs, dir, a)))
  {
    var made := MadeDirectory(fs, dir);
    var copies := AllCopies(fs, dir, c.detached);
    var signed := Filter(NeedsSidecars, c.detached);
    var sidecars := AllSidecars(env, fs, dir, signed);
    var stored := made + [StoreProperties(PropertiesPath(dir), c.sha1s, PropertiesComment)];
    assert Plan(env, fs, dir, c) == (stored + copies) + sidecars;
    assert e !in stored;
    assert e !in copies;
    var k :| 0 <= k < |signed| && (e == Md5Sidecar(env, fs, dir, signed[k]) || e == Sha1Sidecar(env, fs, dir, signed[k]));
    assert signed[k] in signed;
  }

  /** The plan creates at most the working directory itself and writes only files directly
      inside it. */
  lemma PlannedWritesInDirectory(env: Environment, fs: FileSystem, dir: Path, c: Classification, e: Effect)
    requires forall a :: a in c.detached ==> Readable(fs, a)
    requires e in Plan(env, fs, dir, c)
    ensures e.MakeDirectory? ==> e.dir == dir
    ensures !e.MakeDirectory? ==> dir + "/" <= e.Target()
  {
    var made := MadeDirectory(fs, dir);
    var copies := AllCopies(fs, dir, c.detached);
    var signed := Filter(NeedsSidecars, c.detached);
    var sidecars := AllSidecars(env, fs, dir, signed);
    var stored := made + [StoreProperties(PropertiesPath(dir), c.sha1s, PropertiesComment)];
    assert Plan(env, fs, dir, c) == (stored + copies) + sidecars;
    if e in stored {
      PropertiesPathInDirectory(dir);
    } else if e in copies {
      var i :| 0 <= i < |copies| && copies[i] == e;
      WrittenPathsInDirectory(dir, c.detached[i]);
    } else {
      var k :| 0 <= k < |signed| && (e == Md5Sidecar(env, fs, dir, signed[k]) || e == Sha1Sidecar(env, fs, dir, signed[k]));
      WrittenPathsInDirectory(dir, signed[k]);
    }
  }
}
